=== FILE: README.md ===
# rust-wasm-fluid: the page's input and colour layer, the grid utilities and the boundary stencil

This Dafny project models the parts of the fluid toy that work outside the solver's numerics.

- **The browser page, `www/index.js`.**
  - Grid coordinates become clamped buffer addresses (`fluidCoordToArrayAddr`), and canvas coordinates become grid coordinates (`canvasCoordToFluidCoord`).
  - A density becomes a colour by a stepped or interpolated lookup over a list of colour stops (`normalisedDensityToColour`).
  - The brush stamps a disk of density on `click`, and a disk of velocity on `mousemove`. The move handler remembers the last pointer position and whether the button is down.
  - `drawCells` packs one RGBA pixel per cell into the image's `Uint8ClampedArray`.
- **The engine's helpers, `src/util.rs`:** `xy`, `clamp`, `clamp_ab`, `lerp` and `add_array`.
- **The boundary stencil, `src/field.rs`:** `BoundaryAction` and `set_boundary`.
- **The engine record, `src/fluid.rs`:** `Fluid::new`, `tick`, `addr`, `width` and `height`.

Numbers are Dafny `real`s and buffers are `seq<real>`. Each loop in the source (`set_boundary`, `add_array`, `new`, the brush loops, `drawCells`) is a `method` with loop invariants. It is paired with a functional reference definition and lemmas connecting the two:
- the brush is paired with a write log replayed with last-writer-wins semantics;
- `set_boundary` is paired with a closed-form cell-by-cell definition;
- `drawCells` is paired with the image it must produce.

Modules:
- `Wrappers`: `Option` and `Result`.
- `Util`: `src/util.rs`.
- `Field`: the boundary stencil.
- `FluidEngine`: `src/fluid.rs`.
- `TypedArray`: JavaScript typed-array stores and write logs.
- `Coords`: the coordinate helpers of the page.
- `Colour`: the colour mapper.
- `Brush`: the two stroke loops.
- `Input`: the pointer handlers and their state.
- `Render`: `drawCells` and one frame of `renderLoop`.

Where the code and the page's intended behaviour differ, the model follows the code.
- **Colour stops.** The colour mapper has no guard for short stop lists. With one stop and interpolation on, or with no stops at all, it reads a channel of `undefined` and throws. The model returns `Err(UndefinedStop(index))` in exactly those cases. A single stop without interpolation works, because the stop index is then always 0.
- **`tick`.** It adds the velocity source `su` to the density `d`, element by element, and changes nothing else. The model does the same.

The page defines its own `clamp(n, a, b)` (www/index.js:20) and `lerp(n, a, b)` (www/index.js:27). They compute the same values as the engine's `clamp_ab(x, a, b)` and `lerp(a, b, t)`, so the model uses `Util.ClampAB` and `Util.Lerp` for both. For `lerp` the arguments are reordered: the page's `n` is the engine's `t`. `Coords.FluidCoordToArrayAddr` and the colour mapper call these shared definitions.

## Model

| member | source | states |
|---|---|---|
| Util.Clamp | src/util.rs:13-15 | the result lies in [0, 1]; it is the identity on [0, 1], 0 below and 1 above |
| Util.ClampAB | src/util.rs:18-20 | the result is at most b; when a <= b it lies in [a, b] and is the identity inside; when a > b it is b |
| Util.ClampIsClampAB | src/util.rs:13-20 | `clamp` is `clamp_ab` with bounds 0 and 1 |
| Util.ClampABIdempotent | src/util.rs:18-20 | clamping twice to the same bounds is clamping once |
| Util.Lerp | src/util.rs:23-25 | lerp at t = 0 is a and at t = 1 is b; a constant range gives its constant |
| Util.LerpBetween | src/util.rs:23-25 | for t in [0, 1], the result lies between a and b |
| Util.LerpSymmetric | src/util.rs:23-25 | lerp from a to b at t equals lerp from b to a at 1 - t |
| Util.Max | src/util.rs:19 | the larger of two reals, as `f32::max` and `Math.max` give for non-NaN inputs: at least both arguments and equal to one of them |
| Util.Min | src/util.rs:19 | the smaller of two reals, as `f32::min` and `Math.min` give for non-NaN inputs: at most both arguments and equal to one of them |
| Util.Xy | src/util.rs:8-10 | the row-major address of cell (x, y) in rows of n; its range, injectivity and inverse are stated by the four lemmas below |
| Util.LerpStrictlyBetween | src/util.rs:23-25 | for t strictly inside (0, 1) and different end points, the result lies strictly between them |
| Util.XyInBounds | src/util.rs:8-10 | an in-range pair (x < w, y < h) has a row-major address below w*h |
| Util.XyInjective | src/util.rs:8-10 | distinct in-range pairs have distinct addresses |
| Util.XyCell | src/util.rs:8-10 | every address below n*n is the address of the pair (k % n, k / n) |
| Util.XyDecompose | src/util.rs:8-10 | the column and row are recovered from an in-range address by % n and / n |
| Util.AddArray | src/util.rs:1-5 | the result has a's length, and each entry is a[i] + b[i] |
| Field.XFactor | src/field.rs:100-103 | the x multiplier is -1 exactly for NegativeX and 1 for every other action |
| Field.YFactor | src/field.rs:104-107 | the y multiplier is -1 exactly for NegativeY and 1 for every other action |
| Field.SetCell | src/field.rs:110-117 | writing one cell of the n-by-n grid changes that cell only, and nothing past n*n |
| Field.Boundary | src/field.rs:99-119 | the closed-form result of `set_boundary`, slot by slot; the lemmas below state its frame, edges, corners and idempotence, and `Field.SetBoundary` is proved equal to it |
| Field.BoundaryAt | src/field.rs:99-119 | each cell of the closed-form result is given by the per-cell definition |
| Field.BoundaryByCells | src/field.rs:99-119 | a buffer that agrees with the per-cell definition on the grid, and with the input past it, is the closed-form result |
| Field.BoundaryFrame | src/field.rs:109-118 | interior cells and every index at or past n*n are unchanged |
| Field.BoundaryEdges | src/field.rs:109-114 | for 1 <= i <= n-2, the left and right edges are xm times their inner neighbours and the top and bottom edges ym times theirs |
| Field.BoundaryEdgesAt | src/field.rs:109-114 | the edge equations for one i |
| Field.BoundaryCorners | src/field.rs:115-118 | each corner is 0.5 times the sum of its two already-updated adjacent edge cells |
| Field.CornerIsMean | src/field.rs:115-118 | any one corner equals half the sum of its horizontal and its vertical edge neighbour after the rewrite |
| Field.BoundaryIdempotent | src/field.rs:99-119 | applying the stencil twice with the same action equals applying it once |
| Field.EdgeStep | src/field.rs:110-113 | one loop step changes no interior cell and nothing past n*n |
| Field.CornerStep | src/field.rs:115-118 | the corner writes change no interior cell and nothing past n*n |
| Field.EdgeStepAdvances | src/field.rs:109-114 | loop step i turns the grid of stage i into the grid of stage i+1 |
| Field.EdgeStepCell | src/field.rs:109-114 | the same, for one cell |
| Field.EdgeStepRow | src/field.rs:112-113 | the same, for the top and bottom edge cells of step i |
| Field.EdgeStepColumn | src/field.rs:110-111 | the same, for the left and right edge cells of step i |
| Field.EdgeStepElsewhere | src/field.rs:109-114 | the same, for every cell step i does not write |
| Field.CornerStepFinishes | src/field.rs:115-118 | after the loop, the corner writes overwrite the loop's temporary corner values and give the closed form |
| Field.CornerStepCell | src/field.rs:115-118 | the same, for one cell |
| Field.CornerStepCorner | src/field.rs:115-118 | each corner write reads two edge cells that no earlier corner write changed, and yields the closed-form corner |
| Field.CornerStepElsewhere | src/field.rs:115-118 | the corner writes leave every non-corner cell as the edge loop left it |
| Field.SetBoundary | src/field.rs:99-119 | for n >= 2 the length, the interior and everything past n*n are kept; for n >= 3 the result is the closed form |
| FluidEngine.Fluid.Addr | src/fluid.rs:34-36 | `addr` is the row-major address `xy(x, y, width)`, in range for in-range points of a valid engine |
| FluidEngine.Filled | src/fluid.rs:53-59 | a buffer of AREA copies of one value |
| FluidEngine.New | src/fluid.rs:38-81 | width and height are 100 and every buffer has AREA entries; d alternates 0 on even and 1 on odd indices; all other buffers are zero |
| FluidEngine.Tick | src/fluid.rs:95-99 | d[i] becomes d[i] + su[i] for every i < AREA, and no other field changes |
| TypedArray.ApplyWrites | www/index.js:52-58 | replaying a log of typed-array stores, in the order the brush loops issue them, keeps the buffer's length; `TypedArray.ApplyWritesSemantics` states last-writer-wins |
| TypedArray.Store | www/index.js:77-78 | a typed-array store changes only the written index, and only when it is in range |
| TypedArray.ApplyWritesAt | www/index.js:52-58 | replaying a write log leaves in each slot its last write, or its old value |
| TypedArray.LastWriteNone | www/index.js:52-58 | a slot has no last write exactly when no entry of the log writes it |
| TypedArray.LastWriteSome | www/index.js:52-58 | a found last write is an entry writing that slot, with no later entry writing it |
| TypedArray.ApplyWritesSemantics | www/index.js:52-58 | an untouched slot keeps its value; a touched slot holds the value of the last entry that wrote it |
| TypedArray.ApplyWritesSnoc | www/index.js:52-58 | replaying one more entry is one more store |
| Coords.Grid.Size | www/index.js:10 | `arraySize`, the number of cells, width times height |
| Coords.View.CellSizeX | www/index.js:11 | `cellSizeX`, canvas width over grid width, is positive on a non-empty canvas and grid |
| Coords.View.CellSizeY | www/index.js:11 | `cellSizeY`, canvas height over grid height, is positive on a non-empty canvas and grid |
| Coords.FluidCoordToArrayAddr | www/index.js:20-23 | for a non-empty grid the address is in [0, size-1] for every real x and y |
| Coords.AddrClampsFlatIndex | www/index.js:20-23 | the address is the flat index `floor(y)*width + floor(x)` clamped as a whole; columns are not clamped separately |
| Coords.AddrOfCell | www/index.js:22-23 | for integer points inside the grid, the address is `y*width + x` |
| Coords.AddrWrapsIntoNextRow | www/index.js:22-23 | column 100 of row 0 lands on column 0 of row 1 |
| Coords.CanvasCoordToFluidCoord | www/index.js:25 | canvas pixels to grid coordinates, dividing by the cell sizes; its inverse and range are stated by the two lemmas below |
| Coords.CanvasRoundTrip | www/index.js:25 | dividing by the cell size and multiplying back are inverse to each other |
| Coords.CanvasInsideMapsIntoGrid | www/index.js:25 | a point on the canvas maps into the grid's extent |
| Colour.StopIndexInRange | www/index.js:31-35 | with at least two stops, 0 <= a and a+1 <= len-1, and d lies in [0, 1) |
| Colour.StopIndexSingle | www/index.js:31-35 | with one stop, a is 0 and d is 0 |
| Colour.StopIndexEmpty | www/index.js:31-35 | with no stops, a is -1 or 0 and so never names a stop |
| Colour.NormalisedDensityToColour | www/index.js:29-38 | the mapper returns a colour exactly when the list is usable; otherwise it names the stop index outside the list that it read |
| Colour.SteppedIsAStop | www/index.js:29-38 | with interpolation off, the colour is exactly stop a |
| Colour.SingleStopStepped | www/index.js:29-38 | a single stop without interpolation is returned for every input |
| Colour.AtOrBelowZeroIsFirstStop | www/index.js:27-38 | any input <= 0 gives stop 0, with interpolation on or off |
| Colour.InterpolatedBetweenStops | www/index.js:35-37 | with interpolation on, each channel lies between the same channel of stops a and a+1 |
| Colour.InterpolatedIsLerp | www/index.js:32-37 | with interpolation and two or more stops, each channel is `lerp(d, stops[a][i], stops[a+1][i])` for the stop index a and fraction d of the sample |
| Colour.InterpolatedStrictlyBetween | www/index.js:32-37 | with interpolation and a positive fraction, every channel in which stops a and a+1 differ lies strictly between them |
| Colour.SampleOnStop | www/index.js:31-37 | a sample equal to k / (stops - 1), below the upper clamp, maps to stop k in both modes |
| Colour.MappedColourInByteRange | www/index.js:27-38 | stops with channels in [0, 255] give colours with channels in [0, 255] |
| Brush.Distance | www/index.js:44 | the Euclidean distance through the host root; `Brush.DistanceToSelf`, `Brush.DistanceOfProbe` and `Brush.InDiskIff` state what the brush needs of it |
| Brush.SqrtValues | www/index.js:44 | the host root maps 0 to 0 and 64 to 8 |
| Brush.SqrtBelowIff | www/index.js:44 | on non-negative arguments, the root keeps their order in both directions |
| Brush.DistanceOfProbe | www/index.js:44-54 | probe (k, j)'s distance from the centre is the root of (k-8)^2 + (j-8)^2, wherever the centre is |
| Brush.DistanceToSelf | www/index.js:44 | a point is at distance 0 from itself, for any square root meeting the characterisation |
| Brush.SpanValues | www/index.js:6 | the brush square is `paintBrushSize` = 2 × `halfBrush` probes wide, and the stroke has that many squared probes |
| Brush.InDiskIff | www/index.js:54-55 | the mask holds exactly when (k-8)^2 + (j-8)^2 < 64 |
| Brush.FalloffRange | www/index.js:55-56 | a probe inside the disk writes a density in (0, 0.5]; the centre probe writes exactly 0.5 |
| Brush.CentreInDisk | www/index.js:54-55 | the centre probe is always inside the disk |
| Brush.ProbeAddrInside | www/index.js:52-56 | with the brush square inside the grid, probe (k, j) writes the row-major slot of its own cell |
| Brush.ProbeAddrInjective | www/index.js:52-56 | with the brush square inside the grid, distinct probes write distinct slots |
| Brush.DensityLog | www/index.js:52-58 | the click loop's 256 stores in loop order, entry 16k + j for probe (k, j); `Brush.StampDensity` is proved equal to its replay |
| Brush.VelocityLog | www/index.js:73-81 | the move loop's 256 stores of one velocity component in loop order; `Brush.StampVelocity` is proved equal to its replay |
| Brush.DensityLogTouches | www/index.js:52-58 | the density log writes slot i exactly when some probe inside the disk lands on i |
| Brush.VelocityLogTouches | www/index.js:73-81 | the velocity log writes slot i exactly when some probe inside the disk lands on i |
| Brush.DensityStrokeAt | www/index.js:52-58 | after a density stroke, untouched slots keep their values and touched slots hold densities in (0, 0.5] |
| Brush.DensityWriterOf | www/index.js:52-58 | with the square inside the grid, the only writes to probe (k, j)'s slot carry (k, j)'s falloff |
| Brush.DensityStrokeInside | www/index.js:52-58 | with the square inside the grid, every probe in the disk leaves its own falloff in its slot |
| Brush.VelocityStrokeAt | www/index.js:73-81 | after a velocity stroke, a slot holds the drag value exactly when it is touched, and its old value otherwise |
| Brush.DensityStep | www/index.js:53-57 | one probe of the density loop extends the replayed log by that probe's write |
| Brush.VelocityStep | www/index.js:74-79 | one probe of the velocity loop extends the replayed log by that probe's write |
| Brush.DensityStroke | www/index.js:52-58 | the frame, range, own-falloff and centre facts for the whole density stroke |
| Brush.VelocityStroke | www/index.js:73-81 | every slot of a buffer after a velocity stroke, touched or not |
| Brush.StampDensityProbe | www/index.js:54-57 | one probe extends the replayed log by exactly that probe's entry: a store of its falloff inside the disk, nothing outside |
| Brush.StampDensityColumn | www/index.js:53-58 | the inner loop over one column leaves in the buffer exactly the replay of the log up to the end of that column |
| Brush.StampDensity | www/index.js:49-59 | the click loop's result is the replayed log; untouched slots are unchanged; touched slots hold (0, 0.5]; inside the grid each probe holds its falloff and the centre 0.5 |
| Brush.StampVelocityProbe | www/index.js:75-79 | one probe extends both replayed velocity logs by that probe's entry: dx and dy at its slot inside the disk, nothing outside |
| Brush.StampVelocityColumn | www/index.js:74-80 | the inner loop over one column leaves both buffers at the replay of their logs up to the end of that column |
| Brush.StampVelocity | www/index.js:73-81 | both buffers hold dx (resp. dy) exactly at the touched slots and keep every other slot |
| Input.MovedIff | www/index.js:67 | the move test passes exactly when a last position exists and the squared distance to it exceeds 0.0001 |
| Input.Dab | www/index.js:46-59 | a click stroke changes the density source only, and keeps its length |
| Input.Drag | www/index.js:73-81 | a velocity stroke changes the velocity sources only, and keeps their lengths |
| Input.MoveStep | www/index.js:62-90 | a move always records the current position and keeps the button state; a first move or one within 0.01 of the last position leaves every buffer unchanged; a real move with the button down replays the whole density stroke into the density source |
| Input.Step | www/index.js:46-121 | each event keeps the buffer lengths; press and release only set the button; a click writes the density source only |
| Input.RunKeepsLengths | www/index.js:46-121 | any run of events keeps the buffer lengths |
| Input.RunWithoutPressKeepsDensity | www/index.js:62-121 | with the button up and no press or click among the events, the density source never changes |
| Input.RunTracksLastMove | www/index.js:88-89 | after a run, the remembered position is that of the most recent move |
| Input.RunKeepsLast | www/index.js:88-121 | clicks, presses and releases leave the remembered position alone |
| Input.FirstMoveNeverPaints | www/index.js:40-42 | from the page-load state (no last position, button up) the first move leaves every buffer unchanged, records its position and keeps the button up |
| Input.StillPointerNeverPaints | www/index.js:67-89 | a second move to the same spot writes nothing |
| Input.JitterNeverPaints | www/index.js:67 | a move whose squared distance from the last position is at most 0.0001 (distance at most 0.01) writes nothing |
| Input.MoveStepStrokes | www/index.js:67-89 | after a real move each velocity slot holds the drag exactly when the brush touched it, else its old value; without a real move no buffer changes; the density source changes only on a real move with the button down, and then by exactly the density stroke |
| Input.HandleClick | www/index.js:46-59 | the click handler is the reference step; touched density slots hold (0, 0.5] and the rest are unchanged |
| Input.HandleMove | www/index.js:62-90 | the move handler is the reference step. Without a real move no buffer changes. After a real move each velocity slot holds the drag exactly when touched. With the button down the density is the replayed stroke: touched slots hold (0, 0.5], untouched slots keep their value. Density changes only during a real move with the button down |
| Render.ToUint8Clamp | www/index.js:106-109 | a stored byte lies in [0, 255]; values at or below 0 store 0 and at or above 255 store 255 |
| Render.ToUint8ClampNearest | www/index.js:106-109 | inside [0, 255], the stored byte is within 0.5 of the value |
| Render.ToUint8ClampTiesToEven | www/index.js:106-109 | a value exactly halfway between two bytes is stored as the even one of them |
| Render.ToUint8ClampExact | www/index.js:106-109 | a whole number in [0, 255] is stored exactly |
| Render.ToUint8ClampMonotone | www/index.js:106-109 | the store never reverses the order of two values |
| Render.Image | www/index.js:103-110 | the bytes `drawCells` must leave, four per cell with alpha 255; `Render.DrawCells` is proved to write exactly these |
| Render.ImagePixel | www/index.js:104-110 | bytes 4i..4i+2 of the image are the stored channels of cell i's colour, and byte 4i+3 is 255 |
| Render.ImageByte | www/index.js:104-110 | byte 4i + ch of the image is byte ch of cell i's pixel |
| Render.ImageFromColours | www/index.js:99-113 | bytes laid out pixel by pixel from the colours the mapper returns for the cells are exactly the image |
| Render.PixelIndex | www/index.js:103-110 | byte 4i + ch belongs to pixel i, channel ch |
| Render.WholeColourDrawnExactly | www/index.js:104-110 | a cell whose colour has whole-byte channels is drawn with exactly those bytes |
| Render.DrawCells | www/index.js:99-113 | drawing succeeds exactly when there is nothing to draw or the stop list is usable; on success every pixel is packed; on failure the error names an index outside the list |
| Render.RenderFrame | www/index.js:92-94 | one frame ticks the engine and draws its new density |

## Left out

- The solver in `src/field.rs` (`diffuse`, `advect`, `project`): floating-point numerics with no stated contract.
- Engine accessors: as written, the page calls `fluid.d0()` (www/index.js:50) and `fluid.d()` (www/index.js:100). The `Fluid` that `src/fluid.rs` exports has no such methods, only `density()`, `source_u()` and `source_v()`, so each of these calls throws a `TypeError`. The first `drawCells()` runs at the top level of the module (www/index.js:115), so its throw ends module evaluation: the render loop is never scheduled (www/index.js:116), no listener is registered (www/index.js:118-121) and `config.callback()` never runs (www/index.js:129). Clicks and moves therefore do nothing on the page as written. Were the handlers attached, a click would throw at www/index.js:50, and a real move with the button down would throw in the nested `mouseClickHandler`, after the velocity stroke and before `lastX`/`lastY` are updated at www/index.js:88-89. The model does not reproduce these throws. It assumes that working accessors hand out the density source and the density. The handlers write into abstract buffers (`Input.Sources`), `drawCells` takes its cells as a parameter, and a move always records its position.
- The `density`, `source_u` and `source_v` accessors in `src/fluid.rs`: they hand out views of engine memory to JavaScript. The page's buffers are abstract sequences instead.
- DOM and canvas plumbing: `getBoundingClientRect`, `createImageData`, `putImageData` and listener registration. Events arrive in canvas coordinates, and the image buffer is a parameter of length 4 × cells.
- `requestAnimationFrame` rescheduling in `renderLoop`: host scheduling. One frame is modelled (`Render.RenderFrame`).
- `config.callback`, `set_dt`, `set_iterations` and `www/config.js`. The colour stops and the interpolation flag are parameters.
- `Math.sqrt` is a host function. It is a parameter, and the model asks of it only that it undoes squaring of non-negative reals and is strictly increasing.
- IEEE-754 `f32`/`f64` behaviour is not modelled: rounding, NaN and infinities. The brush loops run exactly 16 × 16 probes, as they do in exact arithmetic.
- `u32` wrap-around in `xy` and `addr` is not modelled. Addresses are unbounded naturals, which matters only past 2^32 cells.
- Util.AddArray: requires `b` to be at least as long as `a`. With a shorter `b` the Rust loop panics on an out-of-range index, and the model does not represent the panic.
- Field.SetBoundary: for n = 2 only the length, the interior and the frame past n*n are stated, not each cell's value. For n < 2 the Rust code underflows `n - 2` or indexes outside the grid, which is excluded. A field shorter than n*n is excluded too: the Rust indexing at src/field.rs:110-118 would panic on it. Every engine field is a `[f32; AREA]` array with `AREA = WIDTH * HEIGHT = 100 * 100` (src/fluid.rs:6-22), which is n*n for the engine's grid, so the engine never makes such a call.
- Render.DrawCells: requires the image to hold exactly four bytes per cell and at least `arraySize` cells. The page's `createImageData(width, height)` and the engine's buffer guarantee both.
- Brush.DensityStroke: the exact value left in a slot is stated only when the brush square lies inside the grid. Near the border, clamped probes share slots and the slot keeps the last probe's falloff, which is stated as a range in (0, 0.5].

=== FILE: brush.dfy ===
/**
 The brush of www/index.js. A stroke centred at grid point (x, y) probes the
 16-by-16 square of points (x - 8 + k, y - 8 + j), in the order of the
 source's loops (k outer, j inner), and writes to the buffer slot of every
 probe whose distance from the centre is below the brush radius of 8:
 a falloff density in `mouseClickHandler`, the drag delta in the velocity
 loop of `mouseMoveHandler`. Later writes to a slot replace earlier ones.
 */
module Brush {
  import opened Util
  import opened TypedArray
  import opened Coords

  /** `paintBrushSize`: the brush diameter in grid cells. */
  const PaintBrushSize: nat := 16

  /** `halfBrush = Math.floor(paintBrushSize / 2)`: the brush radius. */
  const HalfBrush: nat := PaintBrushSize / 2

  /** Probes per axis: `xp` runs from x - halfBrush while xp < x + halfBrush. */
  const Span: nat := 16

  /**
   Number of probes, one per step of the two nested loops. Span and Probes
   are written as the literals 16 and 256, and below the log index of probe
   (k, j) is written 16 * k + j, with inverse p / 16, p % 16: the verifier
   treats a product or quotient by a named constant as non-linear
   arithmetic. `SpanValues` proves the literals agree with the brush size.
   */
  const Probes: nat := 256

  /** `Math.sqrt(v)`, through the host's square root. */
  function Sqrt(root: real -> real, v: real): real
  {
    root(v)
  }

  function Square(a: real): real
  {
    a * a
  }

  /**
   `Math.sqrt` belongs to the host, so the model takes it as a parameter and
   asks of it what characterises the square root on the non-negative reals:
   it undoes squaring and it is strictly increasing.
   */
  ghost predicate IsSqrt(root: real -> real)
  {
    (forall a: real :: 0.0 <= a ==> Sqrt(root, Square(a)) == a) &&
    (forall v: real, w: real :: 0.0 <= v < w ==> Sqrt(root, v) < Sqrt(root, w))
  }

  /** `distance`: Euclidean distance between two points. */
  function Distance(root: real -> real, x0: real, y0: real, x1: real, y1: real): real
  {
    Sqrt(root, (x1 - x0) * (x1 - x0) + (y1 - y0) * (y1 - y0))
  }

  /** The k-th probe coordinate along an axis centred at c. */
  function Probe(c: real, k: nat): real
  {
    c - HalfBrush as real + k as real
  }

  /** Squared distance of probe (k, j) from the centre: it depends on the offsets k - 8 and j - 8 only. */
  function OffsetSquared(k: int, j: int): real
  {
    Square((k - HalfBrush) as real) + Square((j - HalfBrush) as real)
  }

  /** The source's mask for probe (k, j): `distance(xp, yp, x, y) < halfBrush`. */
  predicate InDisk(root: real -> real, x: real, y: real, k: nat, j: nat)
  {
    Distance(root, Probe(x, k), Probe(y, j), x, y) < HalfBrush as real
  }

  /** The density written at distance d from the centre: `0.5 * (1 - d / halfBrush)`, with halfBrush written out as 8. */
  function DensityAt(d: real): real
  {
    0.5 * (1.0 - d / 8.0)
  }

  /** The density written by probe (k, j). */
  function Falloff(root: real -> real, x: real, y: real, k: nat, j: nat): real
  {
    DensityAt(Distance(root, Probe(x, k), Probe(y, j), x, y))
  }

  /** The buffer slot probe (k, j) writes to. */
  function ProbeAddr(g: Grid, x: real, y: real, k: nat, j: nat): int
  {
    FluidCoordToArrayAddr(g, Probe(x, k), Probe(y, j))
  }

  lemma SquareNonNegative(a: real)
    ensures 0.0 <= Square(a)
  {
  }

  lemma SqrtOfSquare(root: real -> real, a: real, v: real)
    requires IsSqrt(root)
    requires 0.0 <= a && v == Square(a)
    ensures Sqrt(root, v) == a
  {
    assert Sqrt(root, Square(a)) == a;
  }

  /** `Math.sqrt(0)` is 0 and `Math.sqrt(64)` is 8. */
  lemma SqrtValues(root: real -> real)
    requires IsSqrt(root)
    ensures Sqrt(root, 0.0) == 0.0
    ensures Sqrt(root, 64.0) == 8.0
  {
    SqrtOfSquare(root, 0.0, 0.0);
    SqrtOfSquare(root, 8.0, 64.0);
  }

  /** On the non-negative reals the root keeps the order of its arguments, in both directions. */
  lemma SqrtBelowIff(root: real -> real, v: real, w: real)
    requires IsSqrt(root)
    requires 0.0 <= v && 0.0 <= w
    ensures v < w <==> Sqrt(root, v) < Sqrt(root, w)
  {
    if v < w {
      assert Sqrt(root, v) < Sqrt(root, w);
    } else if w < v {
      assert Sqrt(root, w) < Sqrt(root, v);
    }
  }

  lemma SqrtNonNegative(root: real -> real, v: real)
    requires IsSqrt(root)
    requires 0.0 <= v
    ensures 0.0 <= Sqrt(root, v)
  {
    SqrtValues(root);
    SqrtBelowIff(root, 0.0, v);
  }

  /** `distance` unfolded for an arbitrary pair of points. */
  lemma DistanceUnfold(root: real -> real, x0: real, y0: real, x1: real, y1: real)
    ensures Distance(root, x0, y0, x1, y1) == Sqrt(root, (x1 - x0) * (x1 - x0) + (y1 - y0) * (y1 - y0))
  {
  }

  /** A point is at distance 0 from itself. */
  lemma DistanceToSelf(root: real -> real, x: real, y: real)
    requires IsSqrt(root)
    ensures Distance(root, x, y, x, y) == 0.0
  {
    DistanceUnfold(root, x, y, x, y);
    assert (x - x) * (x - x) + (y - y) * (y - y) == 0.0;
    SqrtValues(root);
  }

  lemma SqrtCongruent(root: real -> real, v: real, w: real)
    requires v == w
    ensures Sqrt(root, v) == Sqrt(root, w)
  {
  }

  /** The distance of probe (k, j) from the centre does not depend on where the centre is. */
  lemma DistanceOfProbe(root: real -> real, x: real, y: real, k: nat, j: nat)
    ensures Distance(root, Probe(x, k), Probe(y, j), x, y) == Sqrt(root, OffsetSquared(k, j))
  {
    var p := Probe(x, k);
    var q := Probe(y, j);
    DistanceUnfold(root, p, q, x, y);
    var ox := (k - HalfBrush) as real;
    var oy := (j - HalfBrush) as real;
    assert x - p == -ox && y - q == -oy;
    assert (x - p) * (x - p) == Square(ox) by {
      assert (x - p) * (x - p) == (-ox) * (-ox);
    }
    assert (y - q) * (y - q) == Square(oy) by {
      assert (y - q) * (y - q) == (-oy) * (-oy);
    }
    SqrtCongruent(root, (x - p) * (x - p) + (y - q) * (y - q), OffsetSquared(k, j));
  }

  /** The mask is the open disk of radius 8 in probe offsets: (k-8)^2 + (j-8)^2 < 64. */
  lemma InDiskIff(root: real -> real, x: real, y: real, k: nat, j: nat)
    requires IsSqrt(root)
    ensures InDisk(root, x, y, k, j) <==> OffsetSquared(k, j) < 64.0
  {
    DistanceOfProbe(root, x, y, k, j);
    SquareNonNegative((k - HalfBrush) as real);
    SquareNonNegative((j - HalfBrush) as real);
    SqrtValues(root);
    SqrtBelowIff(root, OffsetSquared(k, j), 64.0);
  }

  /** Every probe inside the disk writes a density in (0, 0.5]; the centre probe writes exactly 0.5. */
  lemma FalloffRange(root: real -> real, x: real, y: real, k: nat, j: nat)
    requires IsSqrt(root)
    requires InDisk(root, x, y, k, j)
    ensures 0.0 < Falloff(root, x, y, k, j) <= 0.5
    ensures k == HalfBrush && j == HalfBrush ==> Falloff(root, x, y, k, j) == 0.5
  {
    DistanceOfProbe(root, x, y, k, j);
    SquareNonNegative((k - HalfBrush) as real);
    SquareNonNegative((j - HalfBrush) as real);
    SqrtNonNegative(root, OffsetSquared(k, j));
    var d := Sqrt(root, OffsetSquared(k, j));
    assert 0.0 <= d < 8.0;
    assert Falloff(root, x, y, k, j) == 0.5 * (1.0 - d / 8.0);
    if k == HalfBrush && j == HalfBrush {
      assert OffsetSquared(k, j) == 0.0;
      SqrtValues(root);
    }
  }

  /** The centre probe (8, 8) is always inside the disk. */
  lemma CentreInDisk(root: real -> real, x: real, y: real)
    requires IsSqrt(root)
    ensures InDisk(root, x, y, HalfBrush, HalfBrush)
  {
    InDiskIff(root, x, y, HalfBrush, HalfBrush);
  }

  /** The entry probe (k, j) contributes to the density stroke's write log. */
  function DensityWrite(g: Grid, root: real -> real, x: real, y: real, k: nat, j: nat): Write
  {
    if InDisk(root, x, y, k, j) then Put(ProbeAddr(g, x, y, k, j), Falloff(root, x, y, k, j)) else Skip
  }

  /** The writes `mouseClickHandler` performs, in loop order: entry p is probe (p / Span, p % Span). */
  function DensityLog(g: Grid, root: real -> real, x: real, y: real): (ws: seq<Write>)
    ensures |ws| == Probes
  {
    seq(Probes, p requires 0 <= p < Probes => DensityWrite(g, root, x, y, p / 16, p % 16))
  }

  /** Entry of the velocity stroke's log for one buffer: the same probes, all writing v. */
  function VelocityWrite(g: Grid, root: real -> real, x: real, y: real, k: nat, j: nat, v: real): Write
  {
    if InDisk(root, x, y, k, j) then Put(ProbeAddr(g, x, y, k, j), v) else Skip
  }

  /** The writes the velocity loop of `mouseMoveHandler` performs on one buffer, in loop order. */
  function VelocityLog(g: Grid, root: real -> real, x: real, y: real, v: real): (ws: seq<Write>)
    ensures |ws| == Probes
  {
    seq(Probes, p requires 0 <= p < Probes => VelocityWrite(g, root, x, y, p / 16, p % 16, v))
  }

  /** Slot i is the slot of some probe inside the disk. */
  ghost predicate Touched(g: Grid, root: real -> real, x: real, y: real, i: int)
  {
    exists k: nat, j: nat :: k < Span && j < Span && InDisk(root, x, y, k, j) && ProbeAddr(g, x, y, k, j) == i
  }

  /** The brush square lies wholly inside the grid, so no probe is clamped. */
  predicate Inside(g: Grid, x: real, y: real)
  {
    HalfBrush <= x.Floor && x.Floor + HalfBrush <= g.width &&
    HalfBrush <= y.Floor && y.Floor + HalfBrush <= g.height
  }

  lemma FloorShift(c: real, k: nat)
    ensures Probe(c, k).Floor == c.Floor - HalfBrush + k
  {
    var n := k - HalfBrush;
    assert Probe(c, k) == c + n as real;
    var f := c.Floor;
    assert (f + n) as real <= c + n as real < (f + n + 1) as real;
  }

  /** With the square inside the grid, probe (k, j) writes the row-major slot of its own cell. */
  lemma ProbeAddrInside(g: Grid, x: real, y: real, k: nat, j: nat)
    requires Inside(g, x, y) && k < Span && j < Span
    ensures var col := x.Floor - HalfBrush + k;
      var row := y.Floor - HalfBrush + j;
      0 <= col < g.width && 0 <= row < g.height &&
      ProbeAddr(g, x, y, k, j) == Xy(col, row, g.width)
  {
    var col := x.Floor - HalfBrush + k;
    var row := y.Floor - HalfBrush + j;
    FloorShift(x, k);
    FloorShift(y, j);
    XyInBounds(col, row, g.width, g.height);
    assert FlatIndex(g, Probe(x, k), Probe(y, j)) == Xy(col, row, g.width);
    AddrClampsFlatIndex(g, Probe(x, k), Probe(y, j));
  }

  /** With the square inside the grid, distinct probes write distinct slots. */
  lemma ProbeAddrInjective(g: Grid, x: real, y: real, k1: nat, j1: nat, k2: nat, j2: nat)
    requires Inside(g, x, y) && k1 < Span && j1 < Span && k2 < Span && j2 < Span
    requires ProbeAddr(g, x, y, k1, j1) == ProbeAddr(g, x, y, k2, j2)
    ensures k1 == k2 && j1 == j2
  {
    ProbeAddrInside(g, x, y, k1, j1);
    ProbeAddrInside(g, x, y, k2, j2);
    XyInjective(x.Floor - HalfBrush + k1, y.Floor - HalfBrush + j1,
                x.Floor - HalfBrush + k2, y.Floor - HalfBrush + j2, g.width);
  }

  /** The brush is 16 probes wide, 256 in all. */
  lemma SpanValues()
    ensures Span == 2 * HalfBrush == PaintBrushSize && Probes == Span * Span
  {
  }

  /** Log entry p is probe (p / Span, p % Span), and probe (k, j) is entry Span * k + j. */
  lemma LogIndex(p: nat)
    requires p < Probes
    ensures p / 16 < Span && p % 16 < Span && p == 16 * (p / 16) + p % 16
  {
  }

  /** The density log writes slot i exactly when a probe inside the disk lands on i. */
  lemma DensityLogTouches(g: Grid, root: real -> real, x: real, y: real, i: int)
    ensures Touched(g, root, x, y, i) <==> exists t :: 0 <= t < Probes && WritesTo(DensityLog(g, root, x, y)[t], i)
  {
    var ws := DensityLog(g, root, x, y);
    if Touched(g, root, x, y, i) {
      var k: nat, j: nat :| k < Span && j < Span && InDisk(root, x, y, k, j) && ProbeAddr(g, x, y, k, j) == i;
      var t := 16 * k + j;
      assert t / 16 == k && t % 16 == j;
      assert WritesTo(ws[t], i);
    }
    if exists t :: 0 <= t < Probes && WritesTo(ws[t], i) {
      var t :| 0 <= t < Probes && WritesTo(ws[t], i);
      LogIndex(t);
      assert InDisk(root, x, y, t / 16, t % 16) && ProbeAddr(g, x, y, t / 16, t % 16) == i;
    }
  }

  /** The velocity log writes slot i exactly when a probe inside the disk lands on i. */
  lemma VelocityLogTouches(g: Grid, root: real -> real, x: real, y: real, v: real, i: int)
    ensures Touched(g, root, x, y, i) <==> exists t :: 0 <= t < Probes && WritesTo(VelocityLog(g, root, x, y, v)[t], i)
  {
    var ws := VelocityLog(g, root, x, y, v);
    if Touched(g, root, x, y, i) {
      var k: nat, j: nat :| k < Span && j < Span && InDisk(root, x, y, k, j) && ProbeAddr(g, x, y, k, j) == i;
      var t := 16 * k + j;
      assert t / 16 == k && t % 16 == j;
      assert WritesTo(ws[t], i);
    }
    if exists t :: 0 <= t < Probes && WritesTo(ws[t], i) {
      var t :| 0 <= t < Probes && WritesTo(ws[t], i);
      LogIndex(t);
      assert InDisk(root, x, y, t / 16, t % 16) && ProbeAddr(g, x, y, t / 16, t % 16) == i;
    }
  }

  /**
   After a density stroke: a slot no probe in the disk lands on keeps its
   value; a slot some probe lands on holds a density in (0, 0.5].
   */
  lemma DensityStrokeAt(density: seq<real>, g: Grid, root: real -> real, x: real, y: real, i: int)
    requires IsSqrt(root)
    requires 0 <= i < |density|
    ensures var out := ApplyWrites(density, DensityLog(g, root, x, y));
      (!Touched(g, root, x, y, i) ==> out[i] == density[i]) &&
      (Touched(g, root, x, y, i) ==> 0.0 < out[i] <= 0.5)
  {
    var ws := DensityLog(g, root, x, y);
    DensityLogTouches(g, root, x, y, i);
    ApplyWritesSemantics(density, ws, i);
    if Touched(g, root, x, y, i) {
      var t :| IsLastWrite(ws, t, i) && ApplyWrites(density, ws)[i] == ws[t].value;
      LogIndex(t);
      FalloffRange(root, x, y, t / 16, t % 16);
    }
  }

  /** With the square inside the grid, any entry of the density log that writes probe (k, j)'s slot writes its falloff. */
  lemma DensityWriterOf(g: Grid, root: real -> real, x: real, y: real, k: nat, j: nat, t: nat)
    requires Inside(g, x, y)
    requires k < Span && j < Span && t < Probes
    requires WritesTo(DensityLog(g, root, x, y)[t], ProbeAddr(g, x, y, k, j))
    ensures DensityLog(g, root, x, y)[t].value == Falloff(root, x, y, k, j)
  {
    LogIndex(t);
    var k', j' := t / 16, t % 16;
    assert DensityLog(g, root, x, y)[t] == DensityWrite(g, root, x, y, k', j');
    ProbeAddrInjective(g, x, y, k', j', k, j);
  }

  /** With the square inside the grid, every probe in the disk leaves its own falloff in its slot. */
  lemma DensityStrokeInside(density: seq<real>, g: Grid, root: real -> real, x: real, y: real, k: nat, j: nat)
    requires IsSqrt(root)
    requires Inside(g, x, y) && g.Size() <= |density|
    requires k < Span && j < Span && InDisk(root, x, y, k, j)
    ensures 0 <= ProbeAddr(g, x, y, k, j) < |density|
    ensures ApplyWrites(density, DensityLog(g, root, x, y))[ProbeAddr(g, x, y, k, j)] == Falloff(root, x, y, k, j)
  {
    var ws := DensityLog(g, root, x, y);
    var i := ProbeAddr(g, x, y, k, j);
    ProbeAddrInside(g, x, y, k, j);
    XyInBounds(x.Floor - HalfBrush + k, y.Floor - HalfBrush + j, g.width, g.height);
    var t0 := 16 * k + j;
    assert t0 / 16 == k && t0 % 16 == j;
    assert WritesTo(ws[t0], i);
    ApplyWritesSemantics(density, ws, i);
    var t :| IsLastWrite(ws, t, i) && ApplyWrites(density, ws)[i] == ws[t].value;
    DensityWriterOf(g, root, x, y, k, j, t);
  }

  /** After a velocity stroke writing v: exactly the slots some probe in the disk lands on hold v. */
  lemma VelocityStrokeAt(buf: seq<real>, g: Grid, root: real -> real, x: real, y: real, v: real, i: int)
    requires 0 <= i < |buf|
    ensures ApplyWrites(buf, VelocityLog(g, root, x, y, v))[i] == if Touched(g, root, x, y, i) then v else buf[i]
  {
    var ws := VelocityLog(g, root, x, y, v);
    VelocityLogTouches(g, root, x, y, v, i);
    ApplyWritesSemantics(buf, ws, i);
    if Touched(g, root, x, y, i) {
      var t :| IsLastWrite(ws, t, i) && ApplyWrites(buf, ws)[i] == ws[t].value;
      LogIndex(t);
    }
  }

  /** One probe of the density loop: the log grows by the probe's write. */
  lemma DensityStep(density: seq<real>, g: Grid, root: real -> real, x: real, y: real, k: nat, j: nat)
    requires k < Span && j < Span
    ensures var ws := DensityLog(g, root, x, y);
      var before := ApplyWrites(density, ws[..16 * k + j]);
      ApplyWrites(density, ws[..16 * k + j + 1]) ==
        if InDisk(root, x, y, k, j) then Store(before, ProbeAddr(g, x, y, k, j), Falloff(root, x, y, k, j)) else before
  {
    var p := 16 * k + j;
    assert p / 16 == k && p % 16 == j;
    ApplyWritesSnoc(density, DensityLog(g, root, x, y), p);
  }

  /** One probe of the velocity loop on one buffer. */
  lemma VelocityStep(buf: seq<real>, g: Grid, root: real -> real, x: real, y: real, v: real, k: nat, j: nat)
    requires k < Span && j < Span
    ensures var ws := VelocityLog(g, root, x, y, v);
      var before := ApplyWrites(buf, ws[..16 * k + j]);
      ApplyWrites(buf, ws[..16 * k + j + 1]) ==
        if InDisk(root, x, y, k, j) then Store(before, ProbeAddr(g, x, y, k, j), v) else before
  {
    var p := 16 * k + j;
    assert p / 16 == k && p % 16 == j;
    ApplyWritesSnoc(buf, VelocityLog(g, root, x, y, v), p);
  }

  /** What a whole density stroke leaves in the buffer. */
  lemma DensityStroke(density: seq<real>, g: Grid, root: real -> real, x: real, y: real)
    requires IsSqrt(root)
    ensures var out := ApplyWrites(density, DensityLog(g, root, x, y));
      (forall i :: 0 <= i < |density| && !Touched(g, root, x, y, i) ==> out[i] == density[i]) &&
      (forall i :: 0 <= i < |density| && Touched(g, root, x, y, i) ==> 0.0 < out[i] <= 0.5)
    ensures var out := ApplyWrites(density, DensityLog(g, root, x, y));
      Inside(g, x, y) && g.Size() <= |density| ==>
        (forall k: nat, j: nat :: k < Span && j < Span && InDisk(root, x, y, k, j) ==>
          0 <= ProbeAddr(g, x, y, k, j) < |out| && out[ProbeAddr(g, x, y, k, j)] == Falloff(root, x, y, k, j)) &&
        0 <= ProbeAddr(g, x, y, HalfBrush, HalfBrush) < |out| && out[ProbeAddr(g, x, y, HalfBrush, HalfBrush)] == 0.5
  {
    var out := ApplyWrites(density, DensityLog(g, root, x, y));
    forall i | 0 <= i < |density|
      ensures !Touched(g, root, x, y, i) ==> out[i] == density[i]
      ensures Touched(g, root, x, y, i) ==> 0.0 < out[i] <= 0.5
    {
      DensityStrokeAt(density, g, root, x, y, i);
    }
    if Inside(g, x, y) && g.Size() <= |density| {
      forall k: nat, j: nat | k < Span && j < Span && InDisk(root, x, y, k, j)
        ensures 0 <= ProbeAddr(g, x, y, k, j) < |out| && out[ProbeAddr(g, x, y, k, j)] == Falloff(root, x, y, k, j)
      {
        DensityStrokeInside(density, g, root, x, y, k, j);
      }
      CentreInDisk(root, x, y);
      FalloffRange(root, x, y, HalfBrush, HalfBrush);
    }
  }

  /** What a whole velocity stroke writing v leaves in one buffer. */
  lemma VelocityStroke(buf: seq<real>, g: Grid, root: real -> real, x: real, y: real, v: real)
    ensures var out := ApplyWrites(buf, VelocityLog(g, root, x, y, v));
      forall i :: 0 <= i < |buf| ==> out[i] == if Touched(g, root, x, y, i) then v else buf[i]
  {
    forall i | 0 <= i < |buf|
      ensures ApplyWrites(buf, VelocityLog(g, root, x, y, v))[i] == if Touched(g, root, x, y, i) then v else buf[i]
    {
      VelocityStrokeAt(buf, g, root, x, y, v, i);
    }
  }

  /** One probe of the density loop: the store happens only inside the disk. */
  method StampDensityProbe(before: seq<real>, density: seq<real>, g: Grid, root: real -> real, x: real, y: real, xp: real, yp: real, ghost k: nat, ghost j: nat)
    returns (out: seq<real>)
    requires k < Span && j < Span && xp == Probe(x, k) && yp == Probe(y, j)
    requires AfterWrites(before, density, DensityLog(g, root, x, y), 16 * k + j)
    ensures AfterWrites(out, density, DensityLog(g, root, x, y), 16 * k + j + 1)
  {
    DensityStep(density, g, root, x, y, k, j);
    var d := Distance(root, xp, yp, x, y);
    if d < HalfBrush as real {
      out := Store(before, FluidCoordToArrayAddr(g, xp, yp), DensityAt(d));
    } else {
      out := before;
    }
  }

  /** The inner loop of the density stroke: the probes of column k, top to bottom. */
  method StampDensityColumn(start: seq<real>, density: seq<real>, g: Grid, root: real -> real, x: real, y: real, xp: real, ghost k: nat)
    returns (out: seq<real>)
    requires k < Span && xp == Probe(x, k)
    requires AfterWrites(start, density, DensityLog(g, root, x, y), 16 * k)
    ensures AfterWrites(out, density, DensityLog(g, root, x, y), 16 * k + 16)
  {
    out := start;
    var yp := y - HalfBrush as real;
    ghost var j: nat := 0;
    while yp < y + HalfBrush as real
      invariant j <= Span && yp == Probe(y, j)
      invariant AfterWrites(out, density, DensityLog(g, root, x, y), 16 * k + j)
      decreases Span - j
    {
      out := StampDensityProbe(out, density, g, root, x, y, xp, yp, k, j);
      yp := yp + 1.0;
      j := j + 1;
    }
    assert j == Span;
  }

  /**
   The density loop of `mouseClickHandler`: for every probe inside the disk,
   `density[fluidCoordToArrayAddr(xp, yp)] = 0.5 * (1 - d / halfBrush)`.
   */
  method StampDensity(density: seq<real>, g: Grid, root: real -> real, x: real, y: real) returns (out: seq<real>)
    requires IsSqrt(root)
    ensures out == ApplyWrites(density, DensityLog(g, root, x, y))
    ensures |out| == |density|
    ensures forall i :: 0 <= i < |density| && !Touched(g, root, x, y, i) ==> out[i] == density[i]
    ensures forall i :: 0 <= i < |density| && Touched(g, root, x, y, i) ==> 0.0 < out[i] <= 0.5
    ensures Inside(g, x, y) && g.Size() <= |density| ==>
      forall k: nat, j: nat :: k < Span && j < Span && InDisk(root, x, y, k, j) ==>
        0 <= ProbeAddr(g, x, y, k, j) < |out| && out[ProbeAddr(g, x, y, k, j)] == Falloff(root, x, y, k, j)
    ensures Inside(g, x, y) && g.Size() <= |density| ==>
      0 <= ProbeAddr(g, x, y, HalfBrush, HalfBrush) < |out| && out[ProbeAddr(g, x, y, HalfBrush, HalfBrush)] == 0.5
  {
    ghost var ws := DensityLog(g, root, x, y);
    out := density;
    var xp := x - HalfBrush as real;
    ghost var k: nat := 0;
    while xp < x + HalfBrush as real
      invariant k <= Span && xp == Probe(x, k)
      invariant AfterWrites(out, density, ws, 16 * k)
      decreases Span - k
    {
      out := StampDensityColumn(out, density, g, root, x, y, xp, k);
      xp := xp + 1.0;
      k := k + 1;
    }
    assert ws[..16 * k] == ws;
    DensityStroke(density, g, root, x, y);
  }

  /** One probe of the velocity loop: both buffers take the drag delta at the probe's slot, inside the disk only. */
  method StampVelocityProbe(u0: seq<real>, v0: seq<real>, sourceU: seq<real>, sourceV: seq<real>, g: Grid, root: real -> real,
                            x: real, y: real, dx: real, dy: real, xp: real, yp: real, ghost k: nat, ghost j: nat)
    returns (u: seq<real>, v: seq<real>)
    requires k < Span && j < Span && xp == Probe(x, k) && yp == Probe(y, j)
    requires AfterWrites(u0, sourceU, VelocityLog(g, root, x, y, dx), 16 * k + j)
    requires AfterWrites(v0, sourceV, VelocityLog(g, root, x, y, dy), 16 * k + j)
    ensures AfterWrites(u, sourceU, VelocityLog(g, root, x, y, dx), 16 * k + j + 1)
    ensures AfterWrites(v, sourceV, VelocityLog(g, root, x, y, dy), 16 * k + j + 1)
  {
    VelocityStep(sourceU, g, root, x, y, dx, k, j);
    VelocityStep(sourceV, g, root, x, y, dy, k, j);
    if Distance(root, xp, yp, x, y) < HalfBrush as real {
      var i := FluidCoordToArrayAddr(g, xp, yp);
      u := Store(u0, i, dx);
      v := Store(v0, i, dy);
    } else {
      u, v := u0, v0;
    }
  }

  /** The inner loop of the velocity stroke: the probes of column k, top to bottom. */
  method StampVelocityColumn(u0: seq<real>, v0: seq<real>, sourceU: seq<real>, sourceV: seq<real>, g: Grid, root: real -> real,
                             x: real, y: real, dx: real, dy: real, xp: real, ghost k: nat)
    returns (u: seq<real>, v: seq<real>)
    requires k < Span && xp == Probe(x, k)
    requires AfterWrites(u0, sourceU, VelocityLog(g, root, x, y, dx), 16 * k)
    requires AfterWrites(v0, sourceV, VelocityLog(g, root, x, y, dy), 16 * k)
    ensures AfterWrites(u, sourceU, VelocityLog(g, root, x, y, dx), 16 * k + 16)
    ensures AfterWrites(v, sourceV, VelocityLog(g, root, x, y, dy), 16 * k + 16)
  {
    ghost var wu, wv := VelocityLog(g, root, x, y, dx), VelocityLog(g, root, x, y, dy);
    u, v := u0, v0;
    var yp := y - HalfBrush as real;
    ghost var j: nat := 0;
    while yp < y + HalfBrush as real
      invariant j <= Span && yp == Probe(y, j)
      invariant AfterWrites(u, sourceU, wu, 16 * k + j)
      invariant AfterWrites(v, sourceV, wv, 16 * k + j)
      decreases Span - j
    {
      u, v := StampVelocityProbe(u, v, sourceU, sourceV, g, root, x, y, dx, dy, xp, yp, k, j);
      yp := yp + 1.0;
      j := j + 1;
    }
    assert j == Span;
  }

  /**
   The velocity loop of `mouseMoveHandler`: for every probe inside the disk,
   `sourceU[i] = dx` and `sourceV[i] = dy` at the probe's slot i.
   */
  method StampVelocity(sourceU: seq<real>, sourceV: seq<real>, g: Grid, root: real -> real, x: real, y: real, dx: real, dy: real)
    returns (u: seq<real>, v: seq<real>)
    ensures u == ApplyWrites(sourceU, VelocityLog(g, root, x, y, dx))
    ensures v == ApplyWrites(sourceV, VelocityLog(g, root, x, y, dy))
    ensures |u| == |sourceU| && |v| == |sourceV|
    ensures forall i :: 0 <= i < |sourceU| ==> u[i] == if Touched(g, root, x, y, i) then dx else sourceU[i]
    ensures forall i :: 0 <= i < |sourceV| ==> v[i] == if Touched(g, root, x, y, i) then dy else sourceV[i]
  {
    ghost var wu := VelocityLog(g, root, x, y, dx);
    ghost var wv := VelocityLog(g, root, x, y, dy);
    u, v := sourceU, sourceV;
    var xp := x - HalfBrush as real;
    ghost var k: nat := 0;
    while xp < x + HalfBrush as real
      invariant k <= Span && xp == Probe(x, k)
      invariant AfterWrites(u, sourceU, wu, 16 * k)
      invariant AfterWrites(v, sourceV, wv, 16 * k)
      decreases Span - k
    {
      u, v := StampVelocityColumn(u, v, sourceU, sourceV, g, root, x, y, dx, dy, xp, k);
      xp := xp + 1.0;
      k := k + 1;
    }
    assert wu[..16 * k] == wu;
    assert wv[..16 * k] == wv;
    VelocityStroke(sourceU, g, root, x, y, dx);
    VelocityStroke(sourceV, g, root, x, y, dy);
  }
}

=== FILE: colour.dfy ===
/**
 The colour mapper of www/index.js (`normalisedDensityToColour`): a sample
 is clamped to [0, 0.999], placed on the line of colour stops, and either
 takes the stop at or below it or is interpolated towards the next stop.
 */
module Colour {
  import opened Util
  import opened Wrappers

  /** A colour stop or a mapped colour: red, green and blue channels. */
  datatype Rgb = Rgb(r: real, g: real, b: real)

  /** Reading a channel of a stop the list does not have throws a TypeError; this records which index it was. */
  datatype ColourError = UndefinedStop(index: int)

  /** Upper clamp of the sample, strictly below 1 so that the next stop stays in the list. */
  const UpperSample: real := 0.999

  /** `t`: the sample's position on the stop line. */
  function StopPosition(count: nat, x: real): real
  {
    ClampAB(x, 0.0, UpperSample) * (count - 1) as real
  }

  /** `a`: the stop at or below the sample. */
  function StopIndex(count: nat, x: real): int
  {
    StopPosition(count, x).Floor
  }

  /** `d`: how far the sample lies past stop `a`. */
  function StopFraction(count: nat, x: real): real
  {
    StopPosition(count, x) - StopIndex(count, x) as real
  }

  /** With at least two stops, stops a and a+1 both exist, and the fraction lies in [0, 1). */
  lemma StopIndexInRange(count: nat, x: real)
    requires 2 <= count
    ensures 0 <= StopIndex(count, x) && StopIndex(count, x) + 1 <= count - 1
    ensures 0.0 <= StopFraction(count, x) < 1.0
  {
    var c := ClampAB(x, 0.0, UpperSample);
    var m := (count - 1) as real;
    MulNonNegative(c, m);
    MulNonNegative(UpperSample - c, m);
    assert StopPosition(count, x) < m;
  }

  /** With a single stop the position is 0, so stop 0 is selected and stop 1 is the next. */
  lemma StopIndexSingle(x: real)
    ensures StopIndex(1, x) == 0 && StopFraction(1, x) == 0.0
  {
  }

  /** With no stops, stop a is never in the (empty) list. */
  lemma StopIndexEmpty(x: real)
    ensures StopIndex(0, x) == -1 || StopIndex(0, x) == 0
  {
  }

  lemma StopIndexCases(count: nat, x: real)
    ensures 2 <= count ==> 0 <= StopIndex(count, x) && StopIndex(count, x) + 1 <= count - 1
    ensures count == 1 ==> StopIndex(count, x) == 0
  {
    if 2 <= count {
      StopIndexInRange(count, x);
    }
  }

  /** Channel-wise `lerp(d, ca, cb)`. */
  function LerpRgb(d: real, ca: Rgb, cb: Rgb): Rgb
  {
    Rgb(Lerp(ca.r, cb.r, d), Lerp(ca.g, cb.g, d), Lerp(ca.b, cb.b, d))
  }

  /** The stop list can be used: two or more stops, or a single stop without interpolation. */
  predicate Usable(stops: seq<Rgb>, interpolate: bool)
  {
    2 <= |stops| || (|stops| == 1 && !interpolate)
  }

  /**
   `normalisedDensityToColour`: stop a, or the interpolation from stop a to
   stop a+1 by d. A stop index outside the list throws, as reading a
   channel of `undefined` does.
   */
  function NormalisedDensityToColour(stops: seq<Rgb>, interpolate: bool, x: real): (res: Result<Rgb, ColourError>)
    ensures res.Ok? <==> Usable(stops, interpolate)
    ensures res.Err? ==> !(0 <= res.error.index < |stops|)
  {
    StopIndexCases(|stops|, x);
    var a := StopIndex(|stops|, x);
    var b := a + 1;
    var d := StopFraction(|stops|, x);
    if !(0 <= a < |stops|) then Err(UndefinedStop(a))
    else if interpolate && !(0 <= b < |stops|) then Err(UndefinedStop(b))
    else if interpolate then Ok(LerpRgb(d, stops[a], stops[b]))
    else Ok(stops[a])
  }

  /** Without interpolation the colour is exactly one of the stops, the one at or below the sample. */
  lemma SteppedIsAStop(stops: seq<Rgb>, x: real)
    requires 1 <= |stops|
    ensures var res := NormalisedDensityToColour(stops, false, x);
      res.Ok? && res.value in stops &&
      0 <= StopIndex(|stops|, x) < |stops| && res.value == stops[StopIndex(|stops|, x)]
  {
    if |stops| == 1 {
      StopIndexSingle(x);
    } else {
      StopIndexInRange(|stops|, x);
    }
  }

  /** A single stop is returned for every sample when interpolation is off. */
  lemma SingleStopStepped(s: Rgb, x: real)
    ensures NormalisedDensityToColour([s], false, x) == Ok(s)
  {
    StopIndexSingle(x);
  }

  /** A sample at or below 0 maps to stop 0, with or without interpolation. */
  lemma AtOrBelowZeroIsFirstStop(stops: seq<Rgb>, interpolate: bool, x: real)
    requires Usable(stops, interpolate)
    requires x <= 0.0
    ensures NormalisedDensityToColour(stops, interpolate, x) == Ok(stops[0])
  {
    assert ClampAB(x, 0.0, UpperSample) == 0.0;
    assert StopPosition(|stops|, x) == 0.0;
  }

  /** With interpolation, each channel lies between the same channel of stops a and a+1. */
  lemma InterpolatedBetweenStops(stops: seq<Rgb>, x: real)
    requires 2 <= |stops|
    ensures var a := StopIndex(|stops|, x);
      var res := NormalisedDensityToColour(stops, true, x);
      0 <= a && a + 1 < |stops| && res.Ok? &&
      Min(stops[a].r, stops[a + 1].r) <= res.value.r <= Max(stops[a].r, stops[a + 1].r) &&
      Min(stops[a].g, stops[a + 1].g) <= res.value.g <= Max(stops[a].g, stops[a + 1].g) &&
      Min(stops[a].b, stops[a + 1].b) <= res.value.b <= Max(stops[a].b, stops[a + 1].b)
  {
    StopIndexInRange(|stops|, x);
    var a := StopIndex(|stops|, x);
    var d := StopFraction(|stops|, x);
    LerpBetween(stops[a].r, stops[a + 1].r, d);
    LerpBetween(stops[a].g, stops[a + 1].g, d);
    LerpBetween(stops[a].b, stops[a + 1].b, d);
  }

  /** With interpolation, the colour is `lerp(d, stops[a][i], stops[a+1][i])` in every channel. */
  lemma InterpolatedIsLerp(stops: seq<Rgb>, x: real)
    requires 2 <= |stops|
    ensures var a, d := StopIndex(|stops|, x), StopFraction(|stops|, x);
      0 <= a && a + 1 < |stops| &&
      NormalisedDensityToColour(stops, true, x) ==
        Ok(Rgb(Lerp(stops[a].r, stops[a + 1].r, d), Lerp(stops[a].g, stops[a + 1].g, d), Lerp(stops[a].b, stops[a + 1].b, d)))
  {
    StopIndexInRange(|stops|, x);
  }

  /**
   Past stop a (a positive fraction), each channel in which stops a and a+1
   differ lies strictly between them: the colour is a blend, not a stop.
   */
  lemma InterpolatedStrictlyBetween(stops: seq<Rgb>, x: real)
    requires 2 <= |stops|
    ensures var a, d := StopIndex(|stops|, x), StopFraction(|stops|, x);
      var res := NormalisedDensityToColour(stops, true, x);
      0 <= a && a + 1 < |stops| && res.Ok? &&
      (0.0 < d && stops[a].r != stops[a + 1].r ==> Min(stops[a].r, stops[a + 1].r) < res.value.r < Max(stops[a].r, stops[a + 1].r)) &&
      (0.0 < d && stops[a].g != stops[a + 1].g ==> Min(stops[a].g, stops[a + 1].g) < res.value.g < Max(stops[a].g, stops[a + 1].g)) &&
      (0.0 < d && stops[a].b != stops[a + 1].b ==> Min(stops[a].b, stops[a + 1].b) < res.value.b < Max(stops[a].b, stops[a + 1].b))
  {
    StopIndexInRange(|stops|, x);
    InterpolatedIsLerp(stops, x);
    var a, d := StopIndex(|stops|, x), StopFraction(|stops|, x);
    if 0.0 < d {
      if stops[a].r != stops[a + 1].r { LerpStrictlyBetween(stops[a].r, stops[a + 1].r, d); }
      if stops[a].g != stops[a + 1].g { LerpStrictlyBetween(stops[a].g, stops[a + 1].g, d); }
      if stops[a].b != stops[a + 1].b { LerpStrictlyBetween(stops[a].b, stops[a + 1].b, d); }
    }
  }

  /** A sample that lands exactly on stop k (x = k / (stops - 1), below the upper clamp) maps to stop k in both modes. */
  lemma SampleOnStop(stops: seq<Rgb>, interpolate: bool, x: real, k: nat)
    requires 2 <= |stops|
    requires 0.0 <= x <= UpperSample && x * (|stops| - 1) as real == k as real
    ensures k + 1 < |stops|
    ensures NormalisedDensityToColour(stops, interpolate, x) == Ok(stops[k])
  {
    var m := (|stops| - 1) as real;
    assert ClampAB(x, 0.0, UpperSample) == x;
    assert StopPosition(|stops|, x) == k as real;
    MulNonNegative(1.0 - x, m);
    assert x * m <= m;
    assert (k as real) < m by {
      assert m - x * m == (1.0 - x) * m;
      MulPositive(1.0 - x, m);
    }
    assert StopIndex(|stops|, x) == k;
    assert StopFraction(|stops|, x) == 0.0;
  }

  /** Every channel is in [0, 255]. */
  predicate ByteRange(c: Rgb)
  {
    0.0 <= c.r <= 255.0 && 0.0 <= c.g <= 255.0 && 0.0 <= c.b <= 255.0
  }

  /** Stops whose channels are in [0, 255] give mapped colours in [0, 255], interpolated or not. */
  lemma MappedColourInByteRange(stops: seq<Rgb>, interpolate: bool, x: real)
    requires Usable(stops, interpolate)
    requires forall i :: 0 <= i < |stops| ==> ByteRange(stops[i])
    ensures ByteRange(NormalisedDensityToColour(stops, interpolate, x).value)
  {
    if interpolate {
      InterpolatedBetweenStops(stops, x);
    } else {
      SteppedIsAStop(stops, x);
    }
  }
}

=== FILE: coords.dfy ===
/**
 The coordinate mapper of www/index.js: canvas pixels to fractional grid
 coordinates, and grid coordinates to a clamped flat buffer index.
 */
module Coords {
  import opened Util

  /** The engine's grid as the page sees it: `fluid.width()` by `fluid.height()` cells. */
  datatype Grid = Grid(width: nat, height: nat)
  {
    /** `arraySize`: the number of cells, and the length of every field buffer. */
    function Size(): nat
    {
      width * height
    }
  }

  /** The canvas, in CSS pixels, over the grid it displays. */
  datatype View = View(canvasWidth: real, canvasHeight: real, grid: Grid)
  {
    /** A laid-out canvas over a non-empty grid; otherwise the cell size is not a usable divisor. */
    predicate Valid()
    {
      canvasWidth > 0.0 && canvasHeight > 0.0 && grid.width > 0 && grid.height > 0
    }

    /** `cellSizeX`: canvas pixels per grid column. */
    function CellSizeX(): (s: real)
      requires Valid()
      ensures s > 0.0
    {
      canvasWidth / grid.width as real
    }

    /** `cellSizeY`: canvas pixels per grid row. */
    function CellSizeY(): (s: real)
      requires Valid()
      ensures s > 0.0
    {
      canvasHeight / grid.height as real
    }
  }

  /** `fluidCoordToArrayAddr`: floors both coordinates, flattens row-major, and clamps the flat index to the buffer. */
  function FluidCoordToArrayAddr(g: Grid, x: real, y: real): (i: int)
    ensures 1 <= g.Size() ==> 0 <= i < g.Size()
    ensures g.Size() == 0 ==> i == -1
  {
    ClampAB((y.Floor * g.width + x.Floor) as real, 0.0, (g.Size() - 1) as real).Floor
  }

  /** The flat index before clamping. */
  function FlatIndex(g: Grid, x: real, y: real): int
  {
    y.Floor * g.width + x.Floor
  }

  /** Only the flat index is clamped, not each axis: an in-buffer flat index is kept as is, even when x is past the row's end. */
  lemma AddrClampsFlatIndex(g: Grid, x: real, y: real)
    requires 1 <= g.Size()
    ensures 0 <= FlatIndex(g, x, y) < g.Size() ==> FluidCoordToArrayAddr(g, x, y) == FlatIndex(g, x, y)
    ensures FlatIndex(g, x, y) < 0 ==> FluidCoordToArrayAddr(g, x, y) == 0
    ensures FlatIndex(g, x, y) >= g.Size() ==> FluidCoordToArrayAddr(g, x, y) == g.Size() - 1
  {
  }

  /** On integer coordinates inside the grid the address is the row-major `Xy` address. */
  lemma AddrOfCell(g: Grid, x: nat, y: nat)
    requires x < g.width && y < g.height
    ensures FluidCoordToArrayAddr(g, x as real, y as real) == Xy(x, y, g.width)
  {
    XyInBounds(x, y, g.width, g.height);
    assert (x as real).Floor == x && (y as real).Floor == y;
    AddrClampsFlatIndex(g, x as real, y as real);
  }

  /** Example: one column past the end of row 0 addresses the first cell of row 1. */
  lemma AddrWrapsIntoNextRow()
    ensures FluidCoordToArrayAddr(Grid(100, 100), 100.0, 0.0) == Xy(0, 1, 100)
  {
    AddrClampsFlatIndex(Grid(100, 100), 100.0, 0.0);
  }

  /** `canvasCoordToFluidCoord`: divides by the cell size on each axis; no rounding. */
  function CanvasCoordToFluidCoord(view: View, px: real, py: real): (real, real)
    requires view.Valid()
  {
    (px / view.CellSizeX(), py / view.CellSizeY())
  }

  /** The inverse direction: grid coordinates to canvas pixels. */
  function FluidCoordToCanvasCoord(view: View, gx: real, gy: real): (real, real)
    requires view.Valid()
  {
    (gx * view.CellSizeX(), gy * view.CellSizeY())
  }

  /** Converting to grid coordinates and back returns the original point, in both directions. */
  lemma CanvasRoundTrip(view: View, px: real, py: real)
    requires view.Valid()
    ensures var g := CanvasCoordToFluidCoord(view, px, py);
      var c := FluidCoordToCanvasCoord(view, g.0, g.1);
      c.0 == px && c.1 == py
    ensures var c := FluidCoordToCanvasCoord(view, px, py);
      var g := CanvasCoordToFluidCoord(view, c.0, c.1);
      g.0 == px && g.1 == py
  {
    DivMulCancel(px, view.CellSizeX());
    DivMulCancel(py, view.CellSizeY());
  }

  lemma DivMulCancel(p: real, s: real)
    requires s > 0.0
    ensures (p / s) * s == p && (p * s) / s == p
  {
  }

  /** A point on the canvas maps into the grid: [0, canvasWidth) onto [0, width), and likewise for rows. */
  lemma CanvasInsideMapsIntoGrid(view: View, px: real, py: real)
    requires view.Valid()
    requires 0.0 <= px < view.canvasWidth && 0.0 <= py < view.canvasHeight
    ensures var g := CanvasCoordToFluidCoord(view, px, py);
      0.0 <= g.0 < view.grid.width as real && 0.0 <= g.1 < view.grid.height as real
  {
    ScaledBelow(px, view.canvasWidth, view.grid.width as real);
    ScaledBelow(py, view.canvasHeight, view.grid.height as real);
  }

  lemma ScaledBelow(p: real, extent: real, cells: real)
    requires 0.0 <= p < extent && 0.0 < cells
    ensures 0.0 <= p / (extent / cells) < cells
  {
    assert p / (extent / cells) == cells * (p / extent);
    assert p / extent < 1.0;
    MulNonNegative(cells, 1.0 - p / extent);
    MulNonNegative(cells, p / extent);
  }
}

=== FILE: field.dfy ===
/**
 The boundary stencil of the solver (src/field.rs): `set_boundary` rewrites
 the outermost ring of an n-by-n row-major grid from the ring just inside it.
 The solver's `diffuse`, `advect` and `project` are not part of this model.
 */
module Field {
  import opened Util

  /** How the edge cells copy their inner neighbours. */
  datatype BoundaryAction = Neighbour | NegativeX | NegativeY

  /** Factor for the left and right edges: only `NegativeX` flips the sign. */
  function XFactor(action: BoundaryAction): (m: real)
    ensures m == -1.0 <==> action == NegativeX
    ensures m == 1.0 <==> action != NegativeX
  {
    match action
    case NegativeX => -1.0
    case _ => 1.0
  }

  /** Factor for the bottom and top edges: only `NegativeY` flips the sign. */
  function YFactor(action: BoundaryAction): (m: real)
    ensures m == -1.0 <==> action == NegativeY
    ensures m == 1.0 <==> action != NegativeY
  {
    match action
    case NegativeY => -1.0
    case _ => 1.0
  }

  /** The value of cell (c, r) of a grid stored in x. */
  function At(x: seq<real>, n: nat, c: nat, r: nat): real
    requires c < n && r < n && n * n <= |x|
  {
    XyInBounds(c, r, n, n);
    x[Xy(c, r, n)]
  }

  /** Writes v into cell (c, r); every other cell and every slot past n*n keep their values. */
  function SetCell(x: seq<real>, n: nat, c: nat, r: nat, v: real): (y: seq<real>)
    requires c < n && r < n && n * n <= |x|
    ensures |y| == |x|
    ensures At(y, n, c, r) == v
    ensures forall c': nat, r': nat :: c' < n && r' < n && (c' != c || r' != r) ==> At(y, n, c', r') == At(x, n, c', r')
    ensures forall k :: n * n <= k < |x| ==> y[k] == x[k]
  {
    DistinctCells(n, c, r);
    x[Xy(c, r, n) := v]
  }

  /** Cell (c, r) lies below n*n and no other cell shares its address. */
  lemma DistinctCells(n: nat, c: nat, r: nat)
    requires c < n && r < n
    ensures Xy(c, r, n) < n * n
    ensures forall c': nat, r': nat :: c' < n && r' < n && (c' != c || r' != r) ==> Xy(c', r', n) != Xy(c, r, n) && Xy(c', r', n) < n * n
  {
    XyInBounds(c, r, n, n);
    forall c': nat, r': nat | c' < n && r' < n && (c' != c || r' != r)
      ensures Xy(c', r', n) != Xy(c, r, n) && Xy(c', r', n) < n * n
    {
      XyInBounds(c', r', n, n);
      if Xy(c', r', n) == Xy(c, r, n) {
        XyInjective(c', r', c, r, n);
      }
    }
  }

  /** Cell (c, r) is strictly inside the ring. */
  predicate Interior(n: nat, c: nat, r: nat)
  {
    1 <= c <= n - 2 && 1 <= r <= n - 2
  }

  /**
   The value `set_boundary` leaves in cell (c, r), written in terms of the
   input alone: interior cells keep their value, an edge cell takes its
   inward neighbour times the edge's factor, and a corner is the mean of the
   two edge cells beside it, each of which is itself a copy of the interior
   cell diagonal to the corner.
   */
  function BoundaryCell(x: seq<real>, action: BoundaryAction, n: nat, c: nat, r: nat): real
    requires 3 <= n && c < n && r < n && n * n <= |x|
  {
    var xm := XFactor(action);
    var ym := YFactor(action);
    if c == 0 && r == 0 then 0.5 * (ym * At(x, n, 1, 1) + xm * At(x, n, 1, 1))
    else if c == n - 1 && r == 0 then 0.5 * (ym * At(x, n, n - 2, 1) + xm * At(x, n, n - 2, 1))
    else if c == 0 && r == n - 1 then 0.5 * (xm * At(x, n, 1, n - 2) + ym * At(x, n, 1, n - 2))
    else if c == n - 1 && r == n - 1 then 0.5 * (xm * At(x, n, n - 2, n - 2) + ym * At(x, n, n - 2, n - 2))
    else if c == 0 then xm * At(x, n, 1, r)
    else if c == n - 1 then xm * At(x, n, n - 2, r)
    else if r == 0 then ym * At(x, n, c, 1)
    else if r == n - 1 then ym * At(x, n, c, n - 2)
    else At(x, n, c, r)
  }

  function BoundarySlot(x: seq<real>, action: BoundaryAction, n: nat, k: nat): real
    requires 3 <= n && k < |x| && n * n <= |x|
  {
    if k < n * n then
      XyCell(k, n);
      BoundaryCell(x, action, n, k % n, k / n)
    else
      x[k]
  }

  /** Reference for `set_boundary`: the whole buffer after the rewrite, slot by slot. */
  function Boundary(x: seq<real>, action: BoundaryAction, n: nat): (y: seq<real>)
    requires 3 <= n && n * n <= |x|
    ensures |y| == |x|
  {
    seq(|x|, k requires 0 <= k < |x| => BoundarySlot(x, action, n, k))
  }

  lemma BoundaryAt(x: seq<real>, action: BoundaryAction, n: nat, c: nat, r: nat)
    requires 3 <= n && c < n && r < n && n * n <= |x|
    ensures At(Boundary(x, action, n), n, c, r) == BoundaryCell(x, action, n, c, r)
  {
    XyInBounds(c, r, n, n);
    XyDecompose(c, r, n);
  }

  /** A buffer that agrees with the reference on every cell and past n*n is the reference. */
  lemma BoundaryByCells(x: seq<real>, y: seq<real>, action: BoundaryAction, n: nat)
    requires 3 <= n && n * n <= |x| && |y| == |x|
    requires forall c: nat, r: nat :: c < n && r < n ==> At(y, n, c, r) == BoundaryCell(x, action, n, c, r)
    requires forall k :: n * n <= k < |x| ==> y[k] == x[k]
    ensures y == Boundary(x, action, n)
  {
    var b := Boundary(x, action, n);
    forall k | 0 <= k < |x|
      ensures y[k] == b[k]
    {
      if k < n * n {
        XyCell(k, n);
        assert At(y, n, k % n, k / n) == BoundaryCell(x, action, n, k % n, k / n);
      }
    }
  }

  /** The rewrite leaves interior cells and every slot past n*n untouched. */
  lemma BoundaryFrame(x: seq<real>, action: BoundaryAction, n: nat)
    requires 3 <= n && n * n <= |x|
    ensures forall c: nat, r: nat :: Interior(n, c, r) ==> At(Boundary(x, action, n), n, c, r) == At(x, n, c, r)
    ensures forall k :: n * n <= k < |x| ==> Boundary(x, action, n)[k] == x[k]
  {
    forall c: nat, r: nat | Interior(n, c, r)
      ensures At(Boundary(x, action, n), n, c, r) == At(x, n, c, r)
    {
      BoundaryAt(x, action, n, c, r);
    }
  }

  /** Non-corner edge cells copy their inward neighbour, scaled by the edge's factor. */
  lemma BoundaryEdges(x: seq<real>, action: BoundaryAction, n: nat)
    requires 3 <= n && n * n <= |x|
    ensures forall i: nat :: 1 <= i <= n - 2 ==>
      && At(Boundary(x, action, n), n, 0, i) == XFactor(action) * At(x, n, 1, i)
      && At(Boundary(x, action, n), n, n - 1, i) == XFactor(action) * At(x, n, n - 2, i)
      && At(Boundary(x, action, n), n, i, 0) == YFactor(action) * At(x, n, i, 1)
      && At(Boundary(x, action, n), n, i, n - 1) == YFactor(action) * At(x, n, i, n - 2)
  {
    forall i: nat | 1 <= i <= n - 2
      ensures && At(Boundary(x, action, n), n, 0, i) == XFactor(action) * At(x, n, 1, i)
              && At(Boundary(x, action, n), n, n - 1, i) == XFactor(action) * At(x, n, n - 2, i)
              && At(Boundary(x, action, n), n, i, 0) == YFactor(action) * At(x, n, i, 1)
              && At(Boundary(x, action, n), n, i, n - 1) == YFactor(action) * At(x, n, i, n - 2)
    {
      BoundaryEdgesAt(x, action, n, i);
    }
  }

  lemma BoundaryEdgesAt(x: seq<real>, action: BoundaryAction, n: nat, i: nat)
    requires 3 <= n && n * n <= |x| && 1 <= i <= n - 2
    ensures At(Boundary(x, action, n), n, 0, i) == XFactor(action) * At(x, n, 1, i)
    ensures At(Boundary(x, action, n), n, n - 1, i) == XFactor(action) * At(x, n, n - 2, i)
    ensures At(Boundary(x, action, n), n, i, 0) == YFactor(action) * At(x, n, i, 1)
    ensures At(Boundary(x, action, n), n, i, n - 1) == YFactor(action) * At(x, n, i, n - 2)
  {
    BoundaryAt(x, action, n, 0, i);
    BoundaryAt(x, action, n, n - 1, i);
    BoundaryAt(x, action, n, i, 0);
    BoundaryAt(x, action, n, i, n - 1);
  }

  /** Each corner is half the sum of the two rewritten edge cells beside it. */
  lemma BoundaryCorners(x: seq<real>, action: BoundaryAction, n: nat)
    requires 3 <= n && n * n <= |x|
    ensures var y := Boundary(x, action, n);
      && At(y, n, 0, 0) == 0.5 * (At(y, n, 1, 0) + At(y, n, 0, 1))
      && At(y, n, n - 1, 0) == 0.5 * (At(y, n, n - 2, 0) + At(y, n, n - 1, 1))
      && At(y, n, 0, n - 1) == 0.5 * (At(y, n, 0, n - 2) + At(y, n, 1, n - 1))
      && At(y, n, n - 1, n - 1) == 0.5 * (At(y, n, n - 1, n - 2) + At(y, n, n - 2, n - 1))
  {
    CornerIsMean(x, action, n, 0, 0);
    CornerIsMean(x, action, n, n - 1, 0);
    CornerIsMean(x, action, n, 0, n - 1);
    CornerIsMean(x, action, n, n - 1, n - 1);
  }

  /** Corner (c, r) is half the sum of its horizontal and its vertical edge neighbour. */
  lemma CornerIsMean(x: seq<real>, action: BoundaryAction, n: nat, c: nat, r: nat)
    requires 3 <= n && n * n <= |x| && (c == 0 || c == n - 1) && (r == 0 || r == n - 1)
    ensures var y := Boundary(x, action, n);
      var ci := if c == 0 then 1 else n - 2;
      var ri := if r == 0 then 1 else n - 2;
      At(y, n, c, r) == 0.5 * (At(y, n, ci, r) + At(y, n, c, ri))
  {
    var ci := if c == 0 then 1 else n - 2;
    var ri := if r == 0 then 1 else n - 2;
    BoundaryAt(x, action, n, c, r);
    BoundaryAt(x, action, n, ci, r);
    BoundaryAt(x, action, n, c, ri);
  }

  /** Rewriting the ring a second time changes nothing: the ring depends only on the interior. */
  lemma BoundaryIdempotent(x: seq<real>, action: BoundaryAction, n: nat)
    requires 3 <= n && n * n <= |x|
    ensures Boundary(Boundary(x, action, n), action, n) == Boundary(x, action, n)
  {
    var y := Boundary(x, action, n);
    var z := Boundary(y, action, n);
    BoundaryFrame(x, action, n);
    forall c: nat, r: nat | c < n && r < n
      ensures At(z, n, c, r) == BoundaryCell(x, action, n, c, r)
    {
      BoundaryAt(y, action, n, c, r);
      BoundaryAt(x, action, n, c, r);
      assert Interior(n, 1, 1) && Interior(n, n - 2, 1) && Interior(n, 1, n - 2) && Interior(n, n - 2, n - 2);
      if Interior(n, c, r) {
      } else if c == 0 || c == n - 1 {
        if 1 <= r <= n - 2 {
          assert Interior(n, 1, r) && Interior(n, n - 2, r);
        }
      } else {
        assert Interior(n, c, 1) && Interior(n, c, n - 2);
      }
    }
    BoundaryFrame(y, action, n);
    BoundaryByCells(x, z, action, n);
  }

  /**
   Value of cell (c, r) after the loop of `set_boundary` has run the steps
   1 .. i-1: the edge cells of earlier steps are rewritten; the corners are
   written only by the last step, i = n-1, which reads edge cells that the
   first and the (n-2)th steps rewrote.
   */
  function Stage(x: seq<real>, action: BoundaryAction, n: nat, i: nat, c: nat, r: nat): real
    requires 3 <= n && 1 <= i <= n && c < n && r < n && n * n <= |x|
  {
    var xm := XFactor(action);
    var ym := YFactor(action);
    if Interior(n, c, r) then At(x, n, c, r)
    else if c == 0 && 1 <= r <= n - 2 then (if r < i then xm * At(x, n, 1, r) else At(x, n, c, r))
    else if c == n - 1 && 1 <= r <= n - 2 then (if r < i then xm * At(x, n, n - 2, r) else At(x, n, c, r))
    else if r == 0 && 1 <= c <= n - 2 then (if c < i then ym * At(x, n, c, 1) else At(x, n, c, r))
    else if r == n - 1 && 1 <= c <= n - 2 then (if c < i then ym * At(x, n, c, n - 2) else At(x, n, c, r))
    else if i < n || (c == 0 && r == 0) then At(x, n, c, r)
    else if r == 0 then ym * (xm * At(x, n, n - 2, 1))
    else if c == 0 then xm * (ym * At(x, n, 1, n - 2))
    else ym * (xm * At(x, n, n - 2, n - 2))
  }

  /** Step i of the edge loop of `set_boundary`: left, right, bottom, then top edge cell. */
  function EdgeStep(y: seq<real>, action: BoundaryAction, n: nat, i: nat): (z: seq<real>)
    requires 2 <= n && 1 <= i < n && n * n <= |y|
    ensures |z| == |y|
    ensures forall k :: n * n <= k < |y| ==> z[k] == y[k]
    ensures forall c: nat, r: nat :: Interior(n, c, r) ==> At(z, n, c, r) == At(y, n, c, r)
  {
    var xm := XFactor(action);
    var ym := YFactor(action);
    var y1 := SetCell(y, n, 0, i, xm * At(y, n, 1, i));
    var y2 := SetCell(y1, n, n - 1, i, xm * At(y1, n, n - 2, i));
    var y3 := SetCell(y2, n, i, 0, ym * At(y2, n, i, 1));
    SetCell(y3, n, i, n - 1, ym * At(y3, n, i, n - 2))
  }

  /** The four corner writes that close `set_boundary`. */
  function CornerStep(y: seq<real>, n: nat): (z: seq<real>)
    requires 2 <= n && n * n <= |y|
    ensures |z| == |y|
    ensures forall k :: n * n <= k < |y| ==> z[k] == y[k]
    ensures forall c: nat, r: nat :: Interior(n, c, r) ==> At(z, n, c, r) == At(y, n, c, r)
  {
    var y1 := SetCell(y, n, 0, 0, 0.5 * (At(y, n, 1, 0) + At(y, n, 0, 1)));
    var y2 := SetCell(y1, n, n - 1, 0, 0.5 * (At(y1, n, n - 2, 0) + At(y1, n, n - 1, 1)));
    var y3 := SetCell(y2, n, 0, n - 1, 0.5 * (At(y2, n, 0, n - 2) + At(y2, n, 1, n - 1)));
    SetCell(y3, n, n - 1, n - 1, 0.5 * (At(y3, n, n - 1, n - 2) + At(y3, n, n - 2, n - 1)))
  }

  /** One edge step takes the grid from stage i to stage i + 1. */
  lemma EdgeStepAdvances(x: seq<real>, action: BoundaryAction, n: nat, i: nat, y: seq<real>)
    requires 3 <= n && 1 <= i < n && n * n <= |x| && |y| == |x|
    requires forall c: nat, r: nat :: c < n && r < n ==> At(y, n, c, r) == Stage(x, action, n, i, c, r)
    ensures forall c: nat, r: nat :: c < n && r < n ==> At(EdgeStep(y, action, n, i), n, c, r) == Stage(x, action, n, i + 1, c, r)
  {
    forall c: nat, r: nat | c < n && r < n
      ensures At(EdgeStep(y, action, n, i), n, c, r) == Stage(x, action, n, i + 1, c, r)
    {
      EdgeStepCell(x, action, n, i, y, c, r);
    }
  }

  lemma EdgeStepCell(x: seq<real>, action: BoundaryAction, n: nat, i: nat, y: seq<real>, c: nat, r: nat)
    requires 3 <= n && 1 <= i < n && n * n <= |x| && |y| == |x| && c < n && r < n
    requires forall c: nat, r: nat :: c < n && r < n ==> At(y, n, c, r) == Stage(x, action, n, i, c, r)
    ensures At(EdgeStep(y, action, n, i), n, c, r) == Stage(x, action, n, i + 1, c, r)
  {
    if c == i && (r == 0 || r == n - 1) {
      EdgeStepRow(x, action, n, i, y, c, r);
    } else if r == i && (c == 0 || c == n - 1) {
      EdgeStepColumn(x, action, n, i, y, c, r);
    } else {
      EdgeStepElsewhere(x, action, n, i, y, c, r);
    }
  }

  /** Cells (i, 0) and (i, n-1), written last in the step. */
  lemma EdgeStepRow(x: seq<real>, action: BoundaryAction, n: nat, i: nat, y: seq<real>, c: nat, r: nat)
    requires 3 <= n && 1 <= i < n && n * n <= |x| && |y| == |x| && c < n && r < n
    requires forall c: nat, r: nat :: c < n && r < n ==> At(y, n, c, r) == Stage(x, action, n, i, c, r)
    requires c == i && (r == 0 || r == n - 1)
    ensures At(EdgeStep(y, action, n, i), n, c, r) == Stage(x, action, n, i + 1, c, r)
  {
    var xm := XFactor(action);
    var ym := YFactor(action);
    var y1 := SetCell(y, n, 0, i, xm * At(y, n, 1, i));
    var y2 := SetCell(y1, n, n - 1, i, xm * At(y1, n, n - 2, i));
    var y3 := SetCell(y2, n, i, 0, ym * At(y2, n, i, 1));
    var y4 := SetCell(y3, n, i, n - 1, ym * At(y3, n, i, n - 2));
    if r == n - 1 {
      assert At(y3, n, i, n - 2) == At(y, n, i, n - 2);
    } else {
      assert At(y4, n, c, r) == At(y3, n, c, r);
      assert At(y2, n, i, 1) == At(y, n, i, 1);
    }
  }

  /** Cells (0, i) and (n-1, i), written first in the step. */
  lemma EdgeStepColumn(x: seq<real>, action: BoundaryAction, n: nat, i: nat, y: seq<real>, c: nat, r: nat)
    requires 3 <= n && 1 <= i < n && n * n <= |x| && |y| == |x| && c < n && r < n
    requires forall c: nat, r: nat :: c < n && r < n ==> At(y, n, c, r) == Stage(x, action, n, i, c, r)
    requires r == i && (c == 0 || c == n - 1) && !(c == i && (r == 0 || r == n - 1))
    ensures At(EdgeStep(y, action, n, i), n, c, r) == Stage(x, action, n, i + 1, c, r)
  {
    var xm := XFactor(action);
    var ym := YFactor(action);
    var y1 := SetCell(y, n, 0, i, xm * At(y, n, 1, i));
    var y2 := SetCell(y1, n, n - 1, i, xm * At(y1, n, n - 2, i));
    var y3 := SetCell(y2, n, i, 0, ym * At(y2, n, i, 1));
    var y4 := SetCell(y3, n, i, n - 1, ym * At(y3, n, i, n - 2));
    if c == n - 1 {
      assert At(y4, n, c, r) == At(y2, n, c, r);
      assert At(y1, n, n - 2, i) == At(y, n, n - 2, i);
    } else {
      assert At(y4, n, c, r) == At(y1, n, c, r);
    }
  }

  /** Cells the step does not write. */
  lemma EdgeStepElsewhere(x: seq<real>, action: BoundaryAction, n: nat, i: nat, y: seq<real>, c: nat, r: nat)
    requires 3 <= n && 1 <= i < n && n * n <= |x| && |y| == |x| && c < n && r < n
    requires forall c: nat, r: nat :: c < n && r < n ==> At(y, n, c, r) == Stage(x, action, n, i, c, r)
    requires !(c == i && (r == 0 || r == n - 1)) && !(r == i && (c == 0 || c == n - 1))
    ensures At(EdgeStep(y, action, n, i), n, c, r) == Stage(x, action, n, i + 1, c, r)
  {
    var xm := XFactor(action);
    var ym := YFactor(action);
    var y1 := SetCell(y, n, 0, i, xm * At(y, n, 1, i));
    var y2 := SetCell(y1, n, n - 1, i, xm * At(y1, n, n - 2, i));
    var y3 := SetCell(y2, n, i, 0, ym * At(y2, n, i, 1));
    var y4 := SetCell(y3, n, i, n - 1, ym * At(y3, n, i, n - 2));
    assert At(y4, n, c, r) == At(y, n, c, r);
  }

  /** After the loop, the corner writes produce the reference cell values. */
  lemma CornerStepFinishes(x: seq<real>, action: BoundaryAction, n: nat, y: seq<real>)
    requires 3 <= n && n * n <= |x| && |y| == |x|
    requires forall c: nat, r: nat :: c < n && r < n ==> At(y, n, c, r) == Stage(x, action, n, n, c, r)
    ensures forall c: nat, r: nat :: c < n && r < n ==> At(CornerStep(y, n), n, c, r) == BoundaryCell(x, action, n, c, r)
  {
    forall c: nat, r: nat | c < n && r < n
      ensures At(CornerStep(y, n), n, c, r) == BoundaryCell(x, action, n, c, r)
    {
      CornerStepCell(x, action, n, y, c, r);
    }
  }

  /** Each reference corner is the mean of the two edge cells beside it as the edge loop leaves them. */
  lemma CornerCells(x: seq<real>, action: BoundaryAction, n: nat)
    requires 3 <= n && n * n <= |x|
    ensures BoundaryCell(x, action, n, 0, 0) == 0.5 * (Stage(x, action, n, n, 1, 0) + Stage(x, action, n, n, 0, 1))
    ensures BoundaryCell(x, action, n, n - 1, 0) == 0.5 * (Stage(x, action, n, n, n - 2, 0) + Stage(x, action, n, n, n - 1, 1))
    ensures BoundaryCell(x, action, n, 0, n - 1) == 0.5 * (Stage(x, action, n, n, 0, n - 2) + Stage(x, action, n, n, 1, n - 1))
    ensures BoundaryCell(x, action, n, n - 1, n - 1) == 0.5 * (Stage(x, action, n, n, n - 1, n - 2) + Stage(x, action, n, n, n - 2, n - 1))
  {
  }

  lemma CornerStepCell(x: seq<real>, action: BoundaryAction, n: nat, y: seq<real>, c: nat, r: nat)
    requires 3 <= n && n * n <= |x| && |y| == |x| && c < n && r < n
    requires forall c: nat, r: nat :: c < n && r < n ==> At(y, n, c, r) == Stage(x, action, n, n, c, r)
    ensures At(CornerStep(y, n), n, c, r) == BoundaryCell(x, action, n, c, r)
  {
    if (c == 0 || c == n - 1) && (r == 0 || r == n - 1) {
      CornerStepCorner(x, action, n, y, c, r);
    } else {
      CornerStepElsewhere(x, action, n, y, c, r);
    }
  }

  /** The four corners, each written from two edge cells no corner write has touched. */
  lemma CornerStepCorner(x: seq<real>, action: BoundaryAction, n: nat, y: seq<real>, c: nat, r: nat)
    requires 3 <= n && n * n <= |x| && |y| == |x| && c < n && r < n
    requires forall c: nat, r: nat :: c < n && r < n ==> At(y, n, c, r) == Stage(x, action, n, n, c, r)
    requires (c == 0 || c == n - 1) && (r == 0 || r == n - 1)
    ensures At(CornerStep(y, n), n, c, r) == BoundaryCell(x, action, n, c, r)
  {
    var y1 := SetCell(y, n, 0, 0, 0.5 * (At(y, n, 1, 0) + At(y, n, 0, 1)));
    var y2 := SetCell(y1, n, n - 1, 0, 0.5 * (At(y1, n, n - 2, 0) + At(y1, n, n - 1, 1)));
    var y3 := SetCell(y2, n, 0, n - 1, 0.5 * (At(y2, n, 0, n - 2) + At(y2, n, 1, n - 1)));
    var y4 := SetCell(y3, n, n - 1, n - 1, 0.5 * (At(y3, n, n - 1, n - 2) + At(y3, n, n - 2, n - 1)));
    assert CornerStep(y, n) == y4;
    CornerCells(x, action, n);
    if c == n - 1 && r == n - 1 {
      assert At(y3, n, n - 1, n - 2) == At(y, n, n - 1, n - 2);
      assert At(y3, n, n - 2, n - 1) == At(y, n, n - 2, n - 1);
    } else if c == 0 && r == n - 1 {
      assert At(y4, n, c, r) == At(y3, n, c, r);
      assert At(y2, n, 0, n - 2) == At(y, n, 0, n - 2);
      assert At(y2, n, 1, n - 1) == At(y, n, 1, n - 1);
    } else if c == n - 1 {
      assert At(y4, n, c, r) == At(y2, n, c, r);
      assert At(y1, n, n - 2, 0) == At(y, n, n - 2, 0);
      assert At(y1, n, n - 1, 1) == At(y, n, n - 1, 1);
    } else {
      assert At(y4, n, c, r) == At(y1, n, c, r);
    }
  }

  /** Cells other than the corners: the corner writes leave them as the edge loop did. */
  lemma CornerStepElsewhere(x: seq<real>, action: BoundaryAction, n: nat, y: seq<real>, c: nat, r: nat)
    requires 3 <= n && n * n <= |x| && |y| == |x| && c < n && r < n
    requires forall c: nat, r: nat :: c < n && r < n ==> At(y, n, c, r) == Stage(x, action, n, n, c, r)
    requires !((c == 0 || c == n - 1) && (r == 0 || r == n - 1))
    ensures At(CornerStep(y, n), n, c, r) == BoundaryCell(x, action, n, c, r)
  {
    var y1 := SetCell(y, n, 0, 0, 0.5 * (At(y, n, 1, 0) + At(y, n, 0, 1)));
    var y2 := SetCell(y1, n, n - 1, 0, 0.5 * (At(y1, n, n - 2, 0) + At(y1, n, n - 1, 1)));
    var y3 := SetCell(y2, n, 0, n - 1, 0.5 * (At(y2, n, 0, n - 2) + At(y2, n, 1, n - 1)));
    var y4 := SetCell(y3, n, n - 1, n - 1, 0.5 * (At(y3, n, n - 1, n - 2) + At(y3, n, n - 2, n - 1)));
    assert CornerStep(y, n) == y4;
    assert At(y4, n, c, r) == At(y, n, c, r);
  }

  /**
   `set_boundary`: for i in 1..n rewrites the left, right, bottom and top
   edge cells of row/column i, then sets each corner to the mean of its two
   edge neighbours. The source needs n >= 2 (it computes n - 2 in u32) and a
   buffer of at least n*n slots.
   */
  method SetBoundary(x: seq<real>, action: BoundaryAction, n: nat) returns (y: seq<real>)
    requires 2 <= n && n * n <= |x|
    ensures |y| == |x|
    ensures forall k :: n * n <= k < |x| ==> y[k] == x[k]
    ensures forall c: nat, r: nat :: Interior(n, c, r) ==> At(y, n, c, r) == At(x, n, c, r)
    ensures 3 <= n ==> y == Boundary(x, action, n)
  {
    y := x;
    for i := 1 to n
      invariant |y| == |x|
      invariant forall k :: n * n <= k < |x| ==> y[k] == x[k]
      invariant forall c: nat, r: nat :: Interior(n, c, r) ==> At(y, n, c, r) == At(x, n, c, r)
      invariant 3 <= n ==> forall c: nat, r: nat :: c < n && r < n ==> At(y, n, c, r) == Stage(x, action, n, i, c, r)
    {
      if 3 <= n {
        EdgeStepAdvances(x, action, n, i, y);
      }
      y := EdgeStep(y, action, n, i);
    }
    if 3 <= n {
      CornerStepFinishes(x, action, n, y);
    }
    y := CornerStep(y, n);
    if 3 <= n {
      BoundaryByCells(x, y, action, n);
    }
  }
}

=== FILE: fluid.dfy ===
/**
 The engine record of src/fluid.rs: eight fixed-size f32 buffers on a
 100-by-100 grid. Only `new`, `tick`, `addr`, `width` and `height` are
 modelled; the Float32Array views handed to JavaScript are not.
 */
module FluidEngine {
  import opened Util

  const Width: nat := 100
  const Height: nat := 100
  const Area: nat := Width * Height

  datatype Fluid = Fluid(
    width: nat,
    height: nat,
    u: seq<real>,
    u0: seq<real>,
    v: seq<real>,
    v0: seq<real>,
    d: seq<real>,
    d0: seq<real>,
    su: seq<real>,
    sv: seq<real>)
  {
    /** The shape every engine has: the fixed grid size and Area-long buffers. */
    predicate Valid()
    {
      && width == Width && height == Height
      && |u| == Area && |u0| == Area && |v| == Area && |v0| == Area
      && |d| == Area && |d0| == Area && |su| == Area && |sv| == Area
    }

    /** `addr`: row-major address of (x, y), the same formula as `Util.Xy` with the engine's width. */
    function Addr(x: nat, y: nat): (a: nat)
      ensures a == Xy(x, y, width)
      ensures Valid() && x < width && y < height ==> a < |d| && a < |su|
    {
      x + y * width
    }
  }

  /** Area copies of v. */
  function Filled(v: real): (s: seq<real>)
    ensures |s| == Area
    ensures forall i :: 0 <= i < Area ==> s[i] == v
  {
    seq(Area, _ => v)
  }

  /** `Fluid::new`: density alternates 0, 1, 0, 1, ... along the buffer; every other buffer is zero. */
  method New() returns (f: Fluid)
    ensures f.Valid()
    ensures f.width == 100 && f.height == 100 && |f.d| == 10000
    ensures forall i :: 0 <= i < Area ==> f.d[i] == (if i % 2 == 0 then 0.0 else 1.0)
    ensures forall i :: 0 <= i < Area ==>
      f.u[i] == 0.0 && f.u0[i] == 0.0 && f.v[i] == 0.0 && f.v0[i] == 0.0 &&
      f.d0[i] == 0.0 && f.su[i] == 0.0 && f.sv[i] == 0.0
  {
    var d := Filled(0.0);
    for i := 0 to Area
      invariant |d| == Area
      invariant forall k :: 0 <= k < i ==> d[k] == (if k % 2 == 0 then 0.0 else 1.0)
    {
      if i % 2 == 0 {
        d := d[i := 0.0];
      } else {
        d := d[i := 1.0];
      }
    }
    var zero := Filled(0.0);
    f := Fluid(Width, Height, zero, zero, zero, zero, d, zero, zero, zero);
  }

  /** `tick`: adds the velocity source `su` into the density, slot by slot; nothing else changes. */
  method Tick(f: Fluid) returns (g: Fluid)
    requires f.Valid()
    ensures g.Valid()
    ensures forall i :: 0 <= i < Area ==> g.d[i] == f.d[i] + f.su[i]
    ensures g == f.(d := g.d)
  {
    var d := AddArray(f.d, f.su);
    g := f.(d := d);
  }
}

=== FILE: input.dfy ===
/**
 The pointer handlers of www/index.js. `mousemove` drags velocity into the
 engine's source buffers (and density too while the button is held),
 `click` drops a blob of density, `mousedown` and `mouseup` track the button.
 The engine buffers are taken as plain sequences: the density source the
 page calls `fluid.d0()` and the velocity sources `source_u()`/`source_v()`.
 */
module Input {
  import opened Wrappers
  import opened TypedArray
  import opened Coords
  import opened Brush

  /** The engine buffers the handlers write. */
  datatype Sources = Sources(d0: seq<real>, su: seq<real>, sv: seq<real>)

  /** Handler state: `lastX`/`lastY` (undefined until the first move) and `mouseDown`. */
  datatype Pointer = Pointer(last: Option<(real, real)>, down: bool)

  datatype Handlers = Handlers(pointer: Pointer, sources: Sources)

  /** The page's events, in canvas coordinates (`event.pageX - rect.x`, `event.pageY - rect.y`). */
  datatype Event = MouseMove(px: real, py: real) | MouseClick(px: real, py: real) | MouseDown | MouseUp

  /** The state at page load: no last position, button up. */
  const Initial: Pointer := Pointer(None, false)

  /** `lastX !== undefined && distance(x, y, lastX, lastY) > 0.01` */
  predicate Moved(root: real -> real, last: Option<(real, real)>, x: real, y: real)
  {
    last.Some? && Distance(root, x, y, last.value.0, last.value.1) > 0.01
  }

  /** The threshold is a squared-distance test: the pointer moved when it went more than 0.01 from its last position. */
  lemma MovedIff(root: real -> real, last: Option<(real, real)>, x: real, y: real)
    requires IsSqrt(root)
    ensures Moved(root, last, x, y) <==>
      last.Some? &&
      (last.value.0 - x) * (last.value.0 - x) + (last.value.1 - y) * (last.value.1 - y) > 0.0001
  {
    if last.Some? {
      var (lx, ly) := last.value;
      var v := (lx - x) * (lx - x) + (ly - y) * (ly - y);
      DistanceUnfold(root, x, y, lx, ly);
      SquareNonNegative(lx - x);
      SquareNonNegative(ly - y);
      assert 0.0 <= v;
      SqrtOfSquare(root, 0.01, 0.0001);
      assert Sqrt(root, 0.0001) == 0.01;
      SqrtBelowIff(root, 0.0001, v);
      assert Distance(root, x, y, lx, ly) == Sqrt(root, v);
      assert Moved(root, last, x, y) <==> Sqrt(root, v) > 0.01;
    }
  }

  /** The buffers after a density stroke at fluid point (x, y). */
  function Dab(s: Sources, g: Grid, root: real -> real, x: real, y: real): (r: Sources)
    ensures r.su == s.su && r.sv == s.sv && |r.d0| == |s.d0|
  {
    s.(d0 := ApplyWrites(s.d0, DensityLog(g, root, x, y)))
  }

  /** The buffers after a velocity stroke at (x, y) carrying the drag (dx, dy). */
  function Drag(s: Sources, g: Grid, root: real -> real, x: real, y: real, dx: real, dy: real): (r: Sources)
    ensures r.d0 == s.d0 && |r.su| == |s.su| && |r.sv| == |s.sv|
  {
    s.(su := ApplyWrites(s.su, VelocityLog(g, root, x, y, dx)), sv := ApplyWrites(s.sv, VelocityLog(g, root, x, y, dy)))
  }

  /** `mouseMoveHandler`: stroke only when the pointer moved since the last event; always remember the position. */
  function MoveStep(view: View, root: real -> real, h: Handlers, px: real, py: real): (r: Handlers)
    requires view.Valid()
    ensures r.pointer.last == Some(CanvasCoordToFluidCoord(view, px, py))
    ensures r.pointer.down == h.pointer.down
    ensures h.pointer.last.None? ==> r.sources == h.sources
    ensures var (x, y) := CanvasCoordToFluidCoord(view, px, py);
      !Moved(root, h.pointer.last, x, y) ==> r.sources == h.sources
    ensures var (x, y) := CanvasCoordToFluidCoord(view, px, py);
      Moved(root, h.pointer.last, x, y) && h.pointer.down ==>
        r.sources.d0 == ApplyWrites(h.sources.d0, DensityLog(view.grid, root, x, y))
  {
    var (x, y) := CanvasCoordToFluidCoord(view, px, py);
    var p := h.pointer;
    var s :=
      if Moved(root, p.last, x, y) then
        var dragged := Drag(h.sources, view.grid, root, x, y, x - p.last.value.0, y - p.last.value.1);
        if p.down then Dab(dragged, view.grid, root, x, y) else dragged
      else h.sources;
    Handlers(p.(last := Some((x, y))), s)
  }

  /** One event, as the listeners registered on the canvas handle it. */
  function Step(view: View, root: real -> real, h: Handlers, e: Event): (r: Handlers)
    requires view.Valid()
    ensures |r.sources.d0| == |h.sources.d0| && |r.sources.su| == |h.sources.su| && |r.sources.sv| == |h.sources.sv|
    ensures e.MouseDown? ==> r.pointer.down && r.pointer.last == h.pointer.last && r.sources == h.sources
    ensures e.MouseUp? ==> !r.pointer.down && r.pointer.last == h.pointer.last && r.sources == h.sources
    ensures e.MouseClick? ==> r.pointer == h.pointer && r.sources.su == h.sources.su && r.sources.sv == h.sources.sv
  {
    match e
    case MouseMove(px, py) => MoveStep(view, root, h, px, py)
    case MouseClick(px, py) =>
      var (x, y) := CanvasCoordToFluidCoord(view, px, py);
      h.(sources := Dab(h.sources, view.grid, root, x, y))
    case MouseDown => h.(pointer := h.pointer.(down := true))
    case MouseUp => h.(pointer := h.pointer.(down := false))
  }

  /** A sequence of events, handled in order. */
  function Run(view: View, root: real -> real, h: Handlers, es: seq<Event>): Handlers
    requires view.Valid()
    decreases |es|
  {
    if es == [] then h else Run(view, root, Step(view, root, h, es[0]), es[1..])
  }

  /** An event that can put density into the source: a click, or a press that arms dragging. */
  predicate Paints(e: Event)
  {
    e.MouseClick? || e.MouseDown?
  }

  /** The buffers keep their lengths through any run of events. */
  lemma {:induction false} RunKeepsLengths(view: View, root: real -> real, h: Handlers, es: seq<Event>)
    requires view.Valid()
    ensures var r := Run(view, root, h, es).sources;
      |r.d0| == |h.sources.d0| && |r.su| == |h.sources.su| && |r.sv| == |h.sources.sv|
    decreases |es|
  {
    if es != [] {
      RunKeepsLengths(view, root, Step(view, root, h, es[0]), es[1..]);
    }
  }

  /** With the button up and no click or press among the events, the density source never changes. */
  lemma {:induction false} RunWithoutPressKeepsDensity(view: View, root: real -> real, h: Handlers, es: seq<Event>)
    requires view.Valid()
    requires !h.pointer.down
    requires forall i :: 0 <= i < |es| ==> !Paints(es[i])
    ensures Run(view, root, h, es).sources.d0 == h.sources.d0
    ensures !Run(view, root, h, es).pointer.down
    decreases |es|
  {
    if es != [] {
      var h1 := Step(view, root, h, es[0]);
      assert !Paints(es[0]);
      assert h1.sources.d0 == h.sources.d0 && !h1.pointer.down;
      assert forall i :: 0 <= i < |es[1..]| ==> !Paints(es[1..][i]) by {
        forall i | 0 <= i < |es[1..]|
          ensures !Paints(es[1..][i])
        {
          assert es[1..][i] == es[i + 1];
        }
      }
      RunWithoutPressKeepsDensity(view, root, h1, es[1..]);
    }
  }

  /** The pointer remembers the fluid position of the most recent move, and nothing else changes it. */
  lemma {:induction false} RunTracksLastMove(view: View, root: real -> real, h: Handlers, es: seq<Event>, m: nat)
    requires view.Valid()
    requires m < |es| && es[m].MouseMove?
    requires forall i :: m < i < |es| ==> !es[i].MouseMove?
    ensures Run(view, root, h, es).pointer.last == Some(CanvasCoordToFluidCoord(view, es[m].px, es[m].py))
    decreases |es|
  {
    var h1 := Step(view, root, h, es[0]);
    if m == 0 {
      RunKeepsLast(view, root, h1, es[1..]);
    } else {
      forall i | m - 1 < i < |es[1..]|
        ensures !es[1..][i].MouseMove?
      {
        assert es[1..][i] == es[i + 1];
      }
      RunTracksLastMove(view, root, h1, es[1..], m - 1);
    }
  }

  /** Events other than moves leave the remembered position alone. */
  lemma {:induction false} RunKeepsLast(view: View, root: real -> real, h: Handlers, es: seq<Event>)
    requires view.Valid()
    requires forall i :: 0 <= i < |es| ==> !es[i].MouseMove?
    ensures Run(view, root, h, es).pointer.last == h.pointer.last
    decreases |es|
  {
    if es != [] {
      assert !es[0].MouseMove?;
      forall i | 0 <= i < |es[1..]|
        ensures !es[1..][i].MouseMove?
      {
        assert es[1..][i] == es[i + 1];
      }
      RunKeepsLast(view, root, Step(view, root, h, es[0]), es[1..]);
    }
  }

  /**
   From page load, the first move strokes nothing, whatever the buffers hold:
   it only records the position. The button stays up.
   */
  lemma FirstMoveNeverPaints(view: View, root: real -> real, s: Sources, px: real, py: real)
    requires view.Valid()
    ensures var r := Run(view, root, Handlers(Initial, s), [MouseMove(px, py)]);
      r.sources == s && !r.pointer.down &&
      r.pointer.last == Some(CanvasCoordToFluidCoord(view, px, py))
  {
    var h := Handlers(Initial, s);
    var h1 := Step(view, root, h, MouseMove(px, py));
    assert h1 == MoveStep(view, root, h, px, py);
    assert Run(view, root, h, [MouseMove(px, py)]) == Run(view, root, h1, []);
  }

  /** A move to the spot the pointer already rests on strokes nothing. */
  lemma StillPointerNeverPaints(view: View, root: real -> real, h: Handlers, px: real, py: real)
    requires view.Valid() && IsSqrt(root)
    ensures var h1 := MoveStep(view, root, h, px, py);
      MoveStep(view, root, h1, px, py).sources == h1.sources
  {
    var h1 := MoveStep(view, root, h, px, py);
    var (x, y) := CanvasCoordToFluidCoord(view, px, py);
    assert h1.pointer.last == Some((x, y));
    DistanceToSelf(root, x, y);
    assert !Moved(root, h1.pointer.last, x, y);
  }

  /** A move that stays within 0.01 of the last position (squared distance at most 0.0001) strokes nothing. */
  lemma JitterNeverPaints(view: View, root: real -> real, h: Handlers, px: real, py: real)
    requires view.Valid() && IsSqrt(root)
    requires var (x, y) := CanvasCoordToFluidCoord(view, px, py);
      h.pointer.last.Some? &&
      (h.pointer.last.value.0 - x) * (h.pointer.last.value.0 - x) + (h.pointer.last.value.1 - y) * (h.pointer.last.value.1 - y) <= 0.0001
    ensures MoveStep(view, root, h, px, py).sources == h.sources
  {
    var (x, y) := CanvasCoordToFluidCoord(view, px, py);
    MovedIff(root, h.pointer.last, x, y);
  }

  /**
   `mouseClickHandler`: the density stroke at the clicked fluid point, with
   the velocity sources and the pointer state untouched.
   */
  method HandleClick(view: View, root: real -> real, h: Handlers, px: real, py: real) returns (r: Handlers)
    requires view.Valid() && IsSqrt(root)
    ensures r == Step(view, root, h, MouseClick(px, py))
    ensures var (x, y) := CanvasCoordToFluidCoord(view, px, py);
      forall i :: 0 <= i < |h.sources.d0| ==>
        (Touched(view.grid, root, x, y, i) ==> 0.0 < r.sources.d0[i] <= 0.5) &&
        (!Touched(view.grid, root, x, y, i) ==> r.sources.d0[i] == h.sources.d0[i])
  {
    var (x, y) := CanvasCoordToFluidCoord(view, px, py);
    var density := StampDensity(h.sources.d0, view.grid, root, x, y);
    r := h.(sources := h.sources.(d0 := density));
  }

  /**
   What a move does to the buffers: when the pointer moved, every slot under
   the brush takes the drag in both velocity sources and every other slot
   keeps its value; the density source changes only on a move with the
   button held, and then by a whole density stroke. A move within 0.01 of
   the last position, or the first move, leaves every buffer as it was.
   */
  lemma MoveStepStrokes(view: View, root: real -> real, h: Handlers, px: real, py: real)
    requires view.Valid()
    ensures var r := MoveStep(view, root, h, px, py);
      var (x, y) := CanvasCoordToFluidCoord(view, px, py);
      Moved(root, h.pointer.last, x, y) ==>
        (forall i :: 0 <= i < |h.sources.su| ==>
          r.sources.su[i] == if Touched(view.grid, root, x, y, i) then x - h.pointer.last.value.0 else h.sources.su[i]) &&
        (forall i :: 0 <= i < |h.sources.sv| ==>
          r.sources.sv[i] == if Touched(view.grid, root, x, y, i) then y - h.pointer.last.value.1 else h.sources.sv[i])
    ensures var r := MoveStep(view, root, h, px, py);
      var (x, y) := CanvasCoordToFluidCoord(view, px, py);
      !(Moved(root, h.pointer.last, x, y) && h.pointer.down) ==> r.sources.d0 == h.sources.d0
    ensures var r := MoveStep(view, root, h, px, py);
      var (x, y) := CanvasCoordToFluidCoord(view, px, py);
      !Moved(root, h.pointer.last, x, y) ==> r.sources == h.sources
    ensures var r := MoveStep(view, root, h, px, py);
      var (x, y) := CanvasCoordToFluidCoord(view, px, py);
      Moved(root, h.pointer.last, x, y) && h.pointer.down ==>
        r.sources.d0 == ApplyWrites(h.sources.d0, DensityLog(view.grid, root, x, y))
  {
    var (x, y) := CanvasCoordToFluidCoord(view, px, py);
    var r := MoveStep(view, root, h, px, py);
    if Moved(root, h.pointer.last, x, y) {
      var (lastX, lastY) := h.pointer.last.value;
      assert r.sources.su == ApplyWrites(h.sources.su, VelocityLog(view.grid, root, x, y, x - lastX));
      assert r.sources.sv == ApplyWrites(h.sources.sv, VelocityLog(view.grid, root, x, y, y - lastY));
      VelocityStroke(h.sources.su, view.grid, root, x, y, x - lastX);
      VelocityStroke(h.sources.sv, view.grid, root, x, y, y - lastY);
    }
  }

  /**
   `mouseMoveHandler`: when the pointer moved, the velocity stroke writes
   the drag into every slot under the brush, and the density stroke follows
   while the button is held; the position is remembered either way.
   */
  method HandleMove(view: View, root: real -> real, h: Handlers, px: real, py: real) returns (r: Handlers)
    requires view.Valid() && IsSqrt(root)
    ensures r == MoveStep(view, root, h, px, py)
    ensures var (x, y) := CanvasCoordToFluidCoord(view, px, py);
      Moved(root, h.pointer.last, x, y) ==>
        (forall i :: 0 <= i < |h.sources.su| ==>
          r.sources.su[i] == if Touched(view.grid, root, x, y, i) then x - h.pointer.last.value.0 else h.sources.su[i]) &&
        (forall i :: 0 <= i < |h.sources.sv| ==>
          r.sources.sv[i] == if Touched(view.grid, root, x, y, i) then y - h.pointer.last.value.1 else h.sources.sv[i])
    ensures var (x, y) := CanvasCoordToFluidCoord(view, px, py);
      !(Moved(root, h.pointer.last, x, y) && h.pointer.down) ==> r.sources.d0 == h.sources.d0
    ensures var (x, y) := CanvasCoordToFluidCoord(view, px, py);
      !Moved(root, h.pointer.last, x, y) ==> r.sources == h.sources
    ensures var (x, y) := CanvasCoordToFluidCoord(view, px, py);
      Moved(root, h.pointer.last, x, y) && h.pointer.down ==>
        r.sources.d0 == ApplyWrites(h.sources.d0, DensityLog(view.grid, root, x, y)) &&
        forall i :: 0 <= i < |h.sources.d0| ==>
          (Touched(view.grid, root, x, y, i) ==> 0.0 < r.sources.d0[i] <= 0.5) &&
          (!Touched(view.grid, root, x, y, i) ==> r.sources.d0[i] == h.sources.d0[i])
  {
    var (x, y) := CanvasCoordToFluidCoord(view, px, py);
    var s := h.sources;
    if h.pointer.last.Some? && Distance(root, x, y, h.pointer.last.value.0, h.pointer.last.value.1) > 0.01 {
      var (lastX, lastY) := h.pointer.last.value;
      var dx := x - lastX;
      var dy := y - lastY;
      var su, sv := StampVelocity(s.su, s.sv, view.grid, root, x, y, dx, dy);
      s := s.(su := su, sv := sv);
      assert s == Drag(h.sources, view.grid, root, x, y, dx, dy);
      if h.pointer.down {
        var d0 := StampDensity(s.d0, view.grid, root, x, y);
        s := s.(d0 := d0);
      }
    }
    assert s == MoveStep(view, root, h, px, py).sources;
    r := Handlers(h.pointer.(last := Some((x, y))), s);
    MoveStepStrokes(view, root, h, px, py);
  }
}

=== FILE: render.dfy ===
/**
 Drawing a frame in www/index.js: `drawCells` maps every density cell to a
 colour and writes it as four bytes (red, green, blue, opaque alpha) into
 the image's `Uint8ClampedArray`; `renderLoop` advances the engine once and
 draws.
 */
module Render {
  import opened Wrappers
  import opened Colour
  import opened FluidEngine

  /**
   A store into a `Uint8ClampedArray`: clamp to [0, 255], then round to the
   nearest integer, ties to the even one (ToUint8Clamp of ECMAScript).
   */
  function ToUint8Clamp(v: real): (b: int)
    ensures 0 <= b <= 255
    ensures v <= 0.0 ==> b == 0
    ensures 255.0 <= v ==> b == 255
  {
    if v <= 0.0 then 0
    else if 255.0 <= v then 255
    else
      var f := v.Floor;
      if (f as real) + 0.5 < v then f + 1
      else if v < (f as real) + 0.5 then f
      else if f % 2 == 0 then f else f + 1
  }

  /** Inside [0, 255] the stored byte is a nearest integer to the value. */
  lemma ToUint8ClampNearest(v: real)
    requires 0.0 <= v <= 255.0
    ensures -0.5 <= ToUint8Clamp(v) as real - v <= 0.5
  {
  }

  /** A value exactly halfway between two bytes is stored as the even one of the two. */
  lemma ToUint8ClampTiesToEven(v: real)
    requires 0.0 < v < 255.0 && v == v.Floor as real + 0.5
    ensures ToUint8Clamp(v) % 2 == 0
    ensures ToUint8Clamp(v) == v.Floor || ToUint8Clamp(v) == v.Floor + 1
  {
  }

  /** A whole number in [0, 255] is stored exactly. */
  lemma ToUint8ClampExact(n: int)
    requires 0 <= n <= 255
    ensures ToUint8Clamp(n as real) == n
  {
    assert (n as real).Floor == n;
  }

  /** The store never reverses the order of two values. */
  lemma ToUint8ClampMonotone(v: real, w: real)
    requires v <= w
    ensures ToUint8Clamp(v) <= ToUint8Clamp(w)
  {
    if 0.0 < v && w < 255.0 {
      var fv, fw := v.Floor, w.Floor;
      assert fv <= fw;
      if fv == fw {
        assert ToUint8Clamp(v) <= ToUint8Clamp(w);
      } else {
        assert ToUint8Clamp(v) <= fv + 1 <= fw <= ToUint8Clamp(w);
      }
    }
  }

  /** Byte ch of the pixel for colour c: the three channels, then alpha 255. */
  function PixelByte(c: Rgb, ch: nat): int
  {
    if ch == 0 then ToUint8Clamp(c.r)
    else if ch == 1 then ToUint8Clamp(c.g)
    else if ch == 2 then ToUint8Clamp(c.b)
    else 255
  }

  /** The image `drawCells` produces for the first n cells: byte 4i + ch is byte ch of cell i's colour. */
  function Image(cells: seq<real>, n: nat, stops: seq<Rgb>, interpolate: bool): (img: seq<int>)
    requires Usable(stops, interpolate) && n <= |cells|
    ensures |img| == 4 * n
  {
    seq(4 * n, p requires 0 <= p < 4 * n => PixelByte(NormalisedDensityToColour(stops, interpolate, cells[p / 4]).value, p % 4))
  }

  /** Every pixel of the image is opaque, and its colour bytes are the clamped channels of its cell's colour. */
  lemma ImagePixel(cells: seq<real>, n: nat, stops: seq<Rgb>, interpolate: bool, i: nat)
    requires Usable(stops, interpolate) && n <= |cells| && i < n
    ensures var img := Image(cells, n, stops, interpolate);
      var c := NormalisedDensityToColour(stops, interpolate, cells[i]).value;
      img[4 * i] == ToUint8Clamp(c.r) && img[4 * i + 1] == ToUint8Clamp(c.g) &&
      img[4 * i + 2] == ToUint8Clamp(c.b) && img[4 * i + 3] == 255
  {
    var c := NormalisedDensityToColour(stops, interpolate, cells[i]).value;
    ImageByte(cells, n, stops, interpolate, i, 0);
    assert PixelByte(c, 0) == ToUint8Clamp(c.r);
    ImageByte(cells, n, stops, interpolate, i, 1);
    assert PixelByte(c, 1) == ToUint8Clamp(c.g);
    ImageByte(cells, n, stops, interpolate, i, 2);
    assert PixelByte(c, 2) == ToUint8Clamp(c.b);
    ImageByte(cells, n, stops, interpolate, i, 3);
  }

  /** Byte 4i + ch of the image is byte ch of cell i's pixel. */
  lemma ImageByte(cells: seq<real>, n: nat, stops: seq<Rgb>, interpolate: bool, i: nat, ch: nat)
    requires Usable(stops, interpolate) && n <= |cells| && i < n && ch < 4
    ensures 4 * i + ch < 4 * n
    ensures Image(cells, n, stops, interpolate)[4 * i + ch] ==
      PixelByte(NormalisedDensityToColour(stops, interpolate, cells[i]).value, ch)
  {
    PixelIndex(i, ch);
  }

  /** Byte 4i + ch belongs to pixel i. */
  lemma PixelIndex(i: nat, ch: nat)
    requires ch < 4
    ensures (4 * i + ch) / 4 == i && (4 * i + ch) % 4 == ch
  {
  }

  /** A cell whose colour has whole-byte channels is drawn with exactly those bytes. */
  lemma WholeColourDrawnExactly(cells: seq<real>, n: nat, stops: seq<Rgb>, interpolate: bool, i: nat, ri: int, gi: int, bi: int)
    requires Usable(stops, interpolate) && n <= |cells| && i < n
    requires 0 <= ri <= 255 && 0 <= gi <= 255 && 0 <= bi <= 255
    requires NormalisedDensityToColour(stops, interpolate, cells[i]) == Ok(Rgb(ri as real, gi as real, bi as real))
    ensures var img := Image(cells, n, stops, interpolate);
      img[4 * i] == ri && img[4 * i + 1] == gi && img[4 * i + 2] == bi && img[4 * i + 3] == 255
  {
    ImagePixel(cells, n, stops, interpolate, i);
    ToUint8ClampExact(ri);
    ToUint8ClampExact(gi);
    ToUint8ClampExact(bi);
  }

  /** Bytes laid out pixel by pixel from the colours of the cells are the image. */
  lemma ImageFromColours(cells: seq<real>, n: nat, stops: seq<Rgb>, interpolate: bool, drawn: seq<Rgb>, data: seq<int>)
    requires Usable(stops, interpolate) && n <= |cells| && |drawn| == n && |data| == 4 * n
    requires forall k :: 0 <= k < n ==> NormalisedDensityToColour(stops, interpolate, cells[k]) == Ok(drawn[k])
    requires forall q :: 0 <= q < 4 * n ==> data[q] == PixelByte(drawn[q / 4], q % 4)
    ensures data == Image(cells, n, stops, interpolate)
  {
    var img := Image(cells, n, stops, interpolate);
    forall q | 0 <= q < 4 * n
      ensures data[q] == img[q]
    {
      assert NormalisedDensityToColour(stops, interpolate, cells[q / 4]) == Ok(drawn[q / 4]);
    }
  }

  /**
   `drawCells`: one pass over the first `arraySize` cells, four bytes per
   cell. The colour mapper throws before anything is written when the stop
   list cannot be used, which is every call once there is a cell to draw.
   */
  method DrawCells(cells: seq<real>, arraySize: nat, image: seq<int>, stops: seq<Rgb>, interpolate: bool)
    returns (res: Result<seq<int>, ColourError>)
    requires arraySize <= |cells| && |image| == 4 * arraySize
    ensures res.Ok? <==> arraySize == 0 || Usable(stops, interpolate)
    ensures res.Ok? && Usable(stops, interpolate) ==> res.value == Image(cells, arraySize, stops, interpolate)
    ensures res.Ok? && arraySize == 0 ==> res.value == image
    ensures res.Err? ==> !(0 <= res.error.index < |stops|)
  {
    var data := image;
    ghost var drawn: seq<Rgb> := [];
    var p := 0;
    for i := 0 to arraySize
      invariant p == 4 * i && |data| == |image| && |drawn| == i
      invariant i > 0 ==> Usable(stops, interpolate)
      invariant forall k :: 0 <= k < i ==> NormalisedDensityToColour(stops, interpolate, cells[k]) == Ok(drawn[k])
      invariant forall q :: 0 <= q < p ==> data[q] == PixelByte(drawn[q / 4], q % 4)
    {
      var colour := NormalisedDensityToColour(stops, interpolate, cells[i]);
      if colour.Err? {
        return Err(colour.error);
      }
      var c := colour.value;
      data := data[p := ToUint8Clamp(c.r)];
      p := p + 1;
      data := data[p := ToUint8Clamp(c.g)];
      p := p + 1;
      data := data[p := ToUint8Clamp(c.b)];
      p := p + 1;
      data := data[p := 255];
      p := p + 1;
      drawn := drawn + [c];
    }
    if 0 < arraySize {
      ImageFromColours(cells, arraySize, stops, interpolate, drawn, data);
    }
    return Ok(data);
  }

  /** `renderLoop`, one frame: `fluid.tick()`, then `drawCells` on the engine's density. */
  method RenderFrame(f: Fluid, image: seq<int>, stops: seq<Rgb>, interpolate: bool)
    returns (g: Fluid, res: Result<seq<int>, ColourError>)
    requires f.Valid() && |image| == 4 * Area
    ensures g.Valid() && g == f.(d := g.d)
    ensures forall i :: 0 <= i < Area ==> g.d[i] == f.d[i] + f.su[i]
    ensures res.Ok? <==> Usable(stops, interpolate)
    ensures res.Ok? ==> res.value == Image(g.d, Area, stops, interpolate)
  {
    g := Tick(f);
    res := DrawCells(g.d, Area, image, stops, interpolate);
  }
}

=== FILE: typed_array.dfy ===
/**
 Element assignment on a JavaScript typed array (the Float32Array views of
 the engine's buffers). An assignment to an index outside the array is
 silently ignored. A sequence of assignments is described by a write log,
 and the content of a buffer after the log is the last value logged for each
 index.
 */
module TypedArray {
  import opened Wrappers

  /** `buf[i] = v` on a typed array: no effect unless 0 <= i < |buf|. */
  function Store(buf: seq<real>, i: int, v: real): (r: seq<real>)
    ensures |r| == |buf|
    ensures forall k :: 0 <= k < |buf| && k != i ==> r[k] == buf[k]
    ensures 0 <= i < |buf| ==> r[i] == v
    ensures !(0 <= i < |buf|) ==> r == buf
  {
    if 0 <= i < |buf| then buf[i := v] else buf
  }

  /** One entry of a write log: an assignment, or a step that writes nothing. */
  datatype Write = Skip | Put(index: int, value: real)

  predicate WritesTo(w: Write, i: int)
  {
    w.Put? && w.index == i
  }

  function Apply(buf: seq<real>, w: Write): seq<real>
  {
    match w
    case Skip => buf
    case Put(i, v) => Store(buf, i, v)
  }

  /** The buffer after performing the logged writes in order. */
  function ApplyWrites(buf: seq<real>, ws: seq<Write>): (r: seq<real>)
    ensures |r| == |buf|
    decreases |ws|
  {
    if ws == [] then buf else Apply(ApplyWrites(buf, ws[..|ws| - 1]), ws[|ws| - 1])
  }

  /** The value of the last write to index i in the log, if any. */
  function LastWrite(ws: seq<Write>, i: int): Option<real>
    decreases |ws|
  {
    if ws == [] then None
    else if WritesTo(ws[|ws| - 1], i) then Some(ws[|ws| - 1].value)
    else LastWrite(ws[..|ws| - 1], i)
  }

  /** A logged write is the last one to its index when no later entry writes there. */
  ghost predicate IsLastWrite(ws: seq<Write>, t: int, i: int)
  {
    0 <= t < |ws| && WritesTo(ws[t], i) &&
    forall t' :: t < t' < |ws| ==> !WritesTo(ws[t'], i)
  }

  /** Each index holds the last value written to it, or its old value when nothing wrote it. */
  lemma {:induction false} ApplyWritesAt(buf: seq<real>, ws: seq<Write>, k: int)
    requires 0 <= k < |buf|
    ensures ApplyWrites(buf, ws)[k] == match LastWrite(ws, k) case Some(v) => v case None => buf[k]
    decreases |ws|
  {
    if ws != [] {
      ApplyWritesAt(buf, ws[..|ws| - 1], k);
    }
  }

  /** No last write exists exactly when no entry of the log writes the index. */
  lemma {:induction false} LastWriteNone(ws: seq<Write>, i: int)
    ensures LastWrite(ws, i).None? <==> forall t :: 0 <= t < |ws| ==> !WritesTo(ws[t], i)
    decreases |ws|
  {
    if ws != [] {
      var init := ws[..|ws| - 1];
      LastWriteNone(init, i);
      assert forall t :: 0 <= t < |init| ==> init[t] == ws[t];
    }
  }

  /** A last write, when there is one, is a logged entry that no later entry overrides. */
  lemma {:induction false} LastWriteSome(ws: seq<Write>, i: int)
    requires LastWrite(ws, i).Some?
    ensures exists t :: IsLastWrite(ws, t, i) && ws[t].value == LastWrite(ws, i).value
    decreases |ws|
  {
    var last := |ws| - 1;
    if WritesTo(ws[last], i) {
      assert IsLastWrite(ws, last, i);
    } else {
      var init := ws[..last];
      LastWriteSome(init, i);
      var t :| IsLastWrite(init, t, i) && init[t].value == LastWrite(init, i).value;
      assert IsLastWrite(ws, t, i);
    }
  }

  /** The buffer after the log: untouched indices keep their value, touched ones hold a last write. */
  lemma ApplyWritesSemantics(buf: seq<real>, ws: seq<Write>, k: int)
    requires 0 <= k < |buf|
    ensures (forall t :: 0 <= t < |ws| ==> !WritesTo(ws[t], k)) ==> ApplyWrites(buf, ws)[k] == buf[k]
    ensures (exists t :: 0 <= t < |ws| && WritesTo(ws[t], k)) ==>
      exists t :: IsLastWrite(ws, t, k) && ApplyWrites(buf, ws)[k] == ws[t].value
  {
    ApplyWritesAt(buf, ws, k);
    LastWriteNone(ws, k);
    if LastWrite(ws, k).Some? {
      LastWriteSome(ws, k);
    }
  }

  /** buf is what the first p entries of the log leave in start. */
  ghost predicate AfterWrites(buf: seq<real>, start: seq<real>, ws: seq<Write>, p: nat)
  {
    p <= |ws| && buf == ApplyWrites(start, ws[..p])
  }

  /** Extending the log by one entry applies that entry on top. */
  lemma ApplyWritesSnoc(buf: seq<real>, ws: seq<Write>, p: nat)
    requires p < |ws|
    ensures ApplyWrites(buf, ws[..p + 1]) == Apply(ApplyWrites(buf, ws[..p]), ws[p])
  {
    assert ws[..p + 1][..p] == ws[..p];
  }
}

=== FILE: util.dfy ===
/**
 Grid helpers shared by the solver (src/util.rs). Numbers are modelled as
 reals, so f32 rounding and NaN handling of `max`/`min` are not modelled.
 */
module Util {

  /** Larger of two values, as `f32::max` on non-NaN inputs. */
  function Max(a: real, b: real): (r: real)
    ensures r >= a && r >= b
    ensures r == a || r == b
  {
    if a < b then b else a
  }

  /** Smaller of two values, as `f32::min` on non-NaN inputs. */
  function Min(a: real, b: real): (r: real)
    ensures r <= a && r <= b
    ensures r == a || r == b
  {
    if b < a then b else a
  }

  /** Row-major address of cell (x, y) in a grid whose rows are n cells wide. */
  function Xy(x: nat, y: nat, n: nat): nat
  {
    x + y * n
  }

  lemma MulLeft(a: nat, b: nat, n: nat)
    requires a <= b
    ensures a * n <= b * n
  {
    assert b * n == a * n + (b - a) * n;
  }

  /** An in-range cell of a w-by-h grid addresses a slot below w*h. */
  lemma XyInBounds(x: nat, y: nat, w: nat, h: nat)
    requires x < w && y < h
    ensures Xy(x, y, w) < w * h
  {
    MulLeft(y + 1, h, w);
    assert Xy(x, y, w) < (y + 1) * w;
    assert (y + 1) * w == w * (y + 1);
    assert h * w == w * h;
  }

  /** Distinct in-row cells have distinct addresses. */
  lemma XyInjective(x1: nat, y1: nat, x2: nat, y2: nat, n: nat)
    requires x1 < n && x2 < n
    requires Xy(x1, y1, n) == Xy(x2, y2, n)
    ensures x1 == x2 && y1 == y2
  {
    if y1 < y2 {
      MulLeft(y1 + 1, y2, n);
      assert false;
    } else if y2 < y1 {
      MulLeft(y2 + 1, y1, n);
      assert false;
    }
  }

  /** Every address below n*n is the address of exactly the cell (k % n, k / n). */
  lemma XyCell(k: nat, n: nat)
    requires k < n * n
    ensures 0 <= k % n < n && 0 <= k / n < n
    ensures Xy(k % n, k / n, n) == k
  {
    assert k == (k / n) * n + k % n;
    if k / n >= n {
      MulLeft(n, k / n, n);
      assert false;
    }
  }

  /** Reading the address of (x, y) back gives the cell (x, y). */
  lemma XyDecompose(x: nat, y: nat, n: nat)
    requires x < n && y < n
    ensures Xy(x, y, n) % n == x && Xy(x, y, n) / n == y
  {
    var k := Xy(x, y, n);
    XyInBounds(x, y, n, n);
    XyCell(k, n);
    var c, r := k % n, k / n;
    assert Xy(c, r, n) == Xy(x, y, n);
    XyInjective(c, r, x, y, n);
  }

  /** `clamp`: restricts a value to the unit interval. */
  function Clamp(x: real): (r: real)
    ensures 0.0 <= r <= 1.0
    ensures 0.0 <= x <= 1.0 ==> r == x
    ensures x < 0.0 ==> r == 0.0
    ensures x > 1.0 ==> r == 1.0
  {
    Min(Max(x, 0.0), 1.0)
  }

  /** `clamp_ab`: restricts a value to [a, b]; when a > b the upper bound wins. */
  function ClampAB(x: real, a: real, b: real): (r: real)
    ensures r <= b
    ensures a <= b ==> a <= r
    ensures a <= x <= b ==> r == x
    ensures a > b ==> r == b
    ensures x < a && a <= b ==> r == a
    ensures x > b ==> r == b
  {
    Min(Max(x, a), b)
  }

  lemma ClampIsClampAB(x: real)
    ensures Clamp(x) == ClampAB(x, 0.0, 1.0)
  {
  }

  lemma ClampABIdempotent(x: real, a: real, b: real)
    ensures ClampAB(ClampAB(x, a, b), a, b) == ClampAB(x, a, b)
  {
  }

  /** `lerp`: the point a fraction t of the way from a to b. */
  function Lerp(a: real, b: real, t: real): (r: real)
    ensures t == 0.0 ==> r == a
    ensures t == 1.0 ==> r == b
    ensures a == b ==> r == a
  {
    a + ((b - a) * t)
  }

  /** For t in [0, 1] the interpolant lies between its end points. */
  lemma LerpBetween(a: real, b: real, t: real)
    requires 0.0 <= t <= 1.0
    ensures Min(a, b) <= Lerp(a, b, t) <= Max(a, b)
  {
    var span := b - a;
    assert span - span * t == span * (1.0 - t);
    if a <= b {
      MulNonNegative(span, t);
      MulNonNegative(span, 1.0 - t);
    } else {
      MulNonNegative(-span, t);
      MulNonNegative(-span, 1.0 - t);
    }
  }

  /** Strictly inside (0, 1), the interpolant of two different end points lies strictly between them. */
  lemma LerpStrictlyBetween(a: real, b: real, t: real)
    requires 0.0 < t < 1.0 && a != b
    ensures Min(a, b) < Lerp(a, b, t) < Max(a, b)
  {
    var span := b - a;
    var l := Lerp(a, b, t);
    assert l == a + span * t;
    assert b - l == span * (1.0 - t);
    if a < b {
      MulPositive(span, t);
      MulPositive(span, 1.0 - t);
      assert a < l < b;
    } else {
      MulPositive(-span, t);
      MulPositive(-span, 1.0 - t);
      assert b < l < a;
    }
  }

  lemma MulPositive(u: real, v: real)
    requires 0.0 < u && 0.0 < v
    ensures 0.0 < u * v
  {
  }

  lemma MulNonNegative(u: real, v: real)
    requires 0.0 <= u && 0.0 <= v
    ensures 0.0 <= u * v
  {
  }

  /** Interpolating from the other end with the complementary fraction gives the same point. */
  lemma LerpSymmetric(a: real, b: real, t: real)
    ensures Lerp(a, b, t) == Lerp(b, a, 1.0 - t)
  {
  }

  /** `add_array`: adds b into a element by element over a's length. */
  method AddArray(a: seq<real>, b: seq<real>) returns (r: seq<real>)
    requires |b| >= |a|
    ensures |r| == |a|
    ensures forall i :: 0 <= i < |a| ==> r[i] == a[i] + b[i]
  {
    r := a;
    for i := 0 to |a|
      invariant |r| == |a|
      invariant forall k :: 0 <= k < i ==> r[k] == a[k] + b[k]
      invariant forall k :: i <= k < |a| ==> r[k] == a[k]
    {
      r := r[i := r[i] + b[i]];
    }
  }
}

=== FILE: wrappers.dfy ===
/** Failure-carrying result types used across the model. */
module Wrappers {

  /** A value that may be absent (the source's `undefined`). */
  datatype Option<+T> = None | Some(value: T)

  /** A computed value, or the error that the source would throw instead. */
  datatype Result<+T, +E> = Ok(value: T) | Err(error: E)
}
